=== FILE: README.md ===
# fit-quest computations in Dafny

fit-quest is a React fitness client backed by a hosted database. Most of it is screens
and queries. This project models the small pure computations inside those screens as
immutable datatypes and pure functions, and proves what the screens promise about them:

- **Activity calendar** (`WorkoutCalendar`, `calendar.dfy`):
  - the per-day workout map holds the count and XP sum of each day;
  - the four-step intensity shade and ring;
  - Sunday-aligned weeks of seven cells with blank padding;
  - the backward-walking day streak. Its `while (true)` loop is proved to terminate.
- **Weekly goal** (`WeeklyGoal`, `weekly_goal.dfy`):
  - the count of workouts inside the week window;
  - the goal-met test and the capped percentage;
  - the 1..14 target editor;
  - the update-or-insert save, which commits the new target only when the write succeeds;
  - the encouragement line.
- **Home screen** (`HomePage`, `home.dfy`):
  - the level card, `total_xp % (level * 1000)` with JavaScript's remainder;
  - the challenge bar;
  - the get-or-create of today's challenge row over an abstract store of rows.
- **Set editor** (`SetEditor`, `set_editor.dfy`): the `{id, reps}` list with its clamped rep counter and the "Add Set" append.
- **Countdown timer** (`WorkoutTimer`, `timer.dfy`):
  - a step function for ticks, play/pause, reset and the quick-set buttons;
  - the `m:ss` split.
- **Analytics** (`Analytics`, `ExerciseRanking`, `PersonalRecords`, in `analytics.dfy`, `ranking.dfy` and `personal_records.dfy`):
  - the 30-day chart;
  - the per-exercise statistics map, kept in the insertion order of a JavaScript `Map`;
  - the stable top-six ranking;
  - the personal records with the date of the first workout that reached each one.
- **Sign-in and sign-up validation** (`Auth`, `auth.dfy`):
  - the password and username rules;
  - a request is sent to the authentication service only when validation passes.

`records.dfy` (`Records`) holds the shared workout row and the reference per-day sums. `js_math.dfy` (`JsMath`) models JavaScript's truncating `%`.

**Dates.** Timestamps and calendar days are integers. A workout carries its `completed_at` instant and its local calendar day, both supplied by the caller. The week bounds, today's day number and the weekday of the first calendar day are parameters.

**Backend.** The database is modelled in two ways:
- Each store is a sequence of rows.
- The goal lookup, goal write, challenge lookup and challenge insert can fail; each has a boolean parameter saying whether it succeeded.

Three behaviours of the code worth noting:
- A new daily challenge uses the first exercise row the catalog query returns (`src/pages/Index.tsx:59-63`). It is not picked by day of year.
- Decrementing reps clamps at zero and keeps the set (`src/pages/Workout.tsx:27`). Removal, templates and max-plus-one ids do not exist; a new set's id is the list length plus one (`src/pages/Workout.tsx:32`).
- "Estimated XP" is the literal 15 (`src/pages/Workout.tsx:125`). No XP is computed from the sets.

Other behaviour the proofs make explicit:
- The username rule `.max(20)` accepts twenty characters although its message says "less than 20".
- The goal save ignores an error from its lookup query. A failed lookup therefore inserts a second row for a user who already has one.

## Model

| member | source | states |
|---|---|---|
| JsMath.Rem | src/pages/Index.tsx:99 | JavaScript `%`: the remainder is smaller in magnitude than the divisor, has the dividend's sign, and dividend = truncated quotient × divisor + remainder |
| JsMath.RemOfNonNegative | src/components/WorkoutTimer.tsx:44 | for a non-negative dividend and a positive divisor, JavaScript `%` is the mathematical remainder |
| WorkoutCalendar.WorkoutsByDate | src/components/WorkoutCalendar.tsx:18-29 | a day is a key exactly when it has at least one workout; its entry holds the number of workouts that day and the sum of their XP, with a missing XP counted as 0 |
| WorkoutCalendar.CountsSumToTotal | src/components/WorkoutCalendar.tsx:20-27 | the counts over all day keys add up to the number of workouts |
| WorkoutCalendar.PresentKeysHaveWorkouts | src/components/WorkoutCalendar.tsx:22-26 | every day key present in the map has a count of at least 1 |
| WorkoutCalendar.IntensityClass | src/components/WorkoutCalendar.tsx:31-37 | the shade is the shade of the count's tier, the count clamped to 0..3: every count of 3 or more gets the full shade and every count of 0 or less the empty one |
| WorkoutCalendar.IntensityRing | src/components/WorkoutCalendar.tsx:39-45 | the ring is the ring of the same tier |
| WorkoutCalendar.TierMonotone | src/components/WorkoutCalendar.tsx:31-45 | more workouts never give a lower tier |
| WorkoutCalendar.RingAndShadeAgree | src/components/WorkoutCalendar.tsx:31-45 | two counts get the same shade exactly when they get the same ring |
| WorkoutCalendar.GroupWeeks | src/components/WorkoutCalendar.tsx:47-70 | every row has 7 cells; the grid starts with `firstDayOfWeek` blanks and then the days in order; everything after them is blank and fewer than 7 cells long; reading the non-blank cells gives back the day list |
| WorkoutCalendar.LeadingBlanks | src/components/WorkoutCalendar.tsx:52-55 | the padding loop yields exactly `firstDayOfWeek` blanks |
| WorkoutCalendar.FillRows | src/components/WorkoutCalendar.tsx:57-63 | the loop closes only full 7-cell rows, leaves fewer than 7 cells open, and the closed rows plus the open row are the blanks followed by all days |
| WorkoutCalendar.CloseGrid | src/components/WorkoutCalendar.tsx:65-70 | closing the grid keeps every row at 7 cells and adds fewer than 7 blanks at the end |
| WorkoutCalendar.PadRow | src/components/WorkoutCalendar.tsx:66-68 | padding fills the open row with blanks up to 7 cells |
| WorkoutCalendar.RunEndingAt | src/components/WorkoutCalendar.tsx:79-89 | the run length n ending at day d: days d-n+1..d are all present, day d-n is absent, and n is at most the number of keys up to d |
| WorkoutCalendar.CurrentStreak | src/components/WorkoutCalendar.tsx:75-91 | the `while (true)` walk terminates; it returns the run ending today if today is present and otherwise the run ending yesterday; the result never exceeds the number of day keys; it is 0 when today and yesterday are both absent |
| WorkoutCalendar.StreakIgnoresFuture | src/components/WorkoutCalendar.tsx:79-89 | keys after today never change the streak |
| WorkoutCalendar.StreakOfWorkouts | src/components/WorkoutCalendar.tsx:75-91 | over a workout list the streak is the streak of its day keys: with a workout today it is the run ending today; with none today but one yesterday it is the run ending yesterday, at least 1; with neither it is 0; it never exceeds the number of days with workouts |
| WeeklyGoal.ThisWeekCount | src/components/WeeklyGoal.tsx:23-28 | the week count never exceeds the number of workouts |
| WeeklyGoal.WeekCountIsWindowSize | src/components/WeeklyGoal.tsx:23-28 | the week count is the number of workouts whose `completed_at` lies in [weekStart, weekEnd] |
| WeeklyGoal.WeekCountMonotone | src/components/WeeklyGoal.tsx:23-28 | inserting a workout anywhere in the list never lowers the week count |
| WeeklyGoal.GoalStaysMet | src/components/WeeklyGoal.tsx:23-31 | a goal met this week stays met when another workout is logged, wherever it lands in the list |
| WeeklyGoal.Progress | src/components/WeeklyGoal.tsx:30-31 | the percentage lies in 0..100; it is 100 exactly when the goal is met; below the goal it is exactly 100 × count / target |
| WeeklyGoal.Decrement | src/components/WeeklyGoal.tsx:143 | minus gives one less, but never below 1: max(1, t − 1); a target in 1..14 stays inside 1..14 |
| WeeklyGoal.Increment | src/components/WeeklyGoal.tsx:156 | plus gives one more, but never above 14: min(14, t + 1); a target in 1..14 stays inside 1..14 |
| WeeklyGoal.ButtonsUndoEachOther | src/components/WeeklyGoal.tsx:143-157 | away from the bounds, minus then plus and plus then minus return the same target |
| WeeklyGoal.InitialEditor | src/components/WeeklyGoal.tsx:16-18 | both the target and the edited value start at 3, not editing |
| WeeklyGoal.RowsOf | src/components/WeeklyGoal.tsx:41-45 | the user filter returns exactly that user's stored rows, each as many times as it is stored, never more rows than the store holds |
| WeeklyGoal.Loaded | src/components/WeeklyGoal.tsx:39-58 | the goal is read from the user's stored rows: exactly one row, with the request succeeding, replaces both the target and the edited value with its target; no row, several rows or a failed request leave the editor as it was |
| WeeklyGoal.Press | src/components/WeeklyGoal.tsx:121-168 | no editor button changes the saved target (only a save does); cancel only leaves edit mode; starting an edit copies the target into the edited value; minus and plus change only the edited value, to max(1, temp − 1) and min(14, temp + 1), and keep the mode; the edited value stays in 1..14 |
| WeeklyGoal.UpdateRows | src/components/WeeklyGoal.tsx:72-75 | the update query rewrites the target of exactly the user's rows and keeps every other row and the row order |
| WeeklyGoal.SaveGoal | src/components/WeeklyGoal.tsx:60-99 | with no user or a failed write nothing changes; a successful write sets the target to the edited value and leaves edit mode; after a successful lookup and write, a user who held at most one row holds exactly one row with the new target; other users' rows never change |
| WeeklyGoal.UpdateKeepsOthers | src/components/WeeklyGoal.tsx:72-75 | the update keeps other users' rows and the user's row count, and every row of the user carries the new target |
| WeeklyGoal.UpdateSingleRow | src/components/WeeklyGoal.tsx:71-76 | a user with one row ends up with exactly that row carrying the new target |
| WeeklyGoal.InsertFirstRow | src/components/WeeklyGoal.tsx:77-81 | a user with no row ends up with exactly one row carrying the new target |
| WeeklyGoal.SaveThenLoad | src/components/WeeklyGoal.tsx:39-99 | a goal saved with a working lookup, by a user with at most one row, is the goal the next load shows |
| WeeklyGoal.DuplicatedGoalNeverLoads | src/components/WeeklyGoal.tsx:39-81 | once a failed lookup has given the user a second row, every later load leaves the editor unchanged, so the saved goal is never shown again |
| WeeklyGoal.FailedLookupDuplicatesRow | src/components/WeeklyGoal.tsx:65-81 | because the lookup's error is ignored, a failed lookup for a user who already has a row leaves that user with two rows |
| WeeklyGoal.EncouragementFor | src/components/WeeklyGoal.tsx:240-244 | "crushed" exactly when the goal is met, "start strong" exactly when unmet with no workouts, and otherwise "N more" with N ≥ 1 and count + N = target |
| HomePage.LevelProgress | src/pages/Index.tsx:98-99 | the span is level × 1000 and the next level is level + 1; for non-negative total XP, 0 ≤ currentLevelXp < span, so the bar never fills; the total differs from currentLevelXp by a whole number of spans |
| HomePage.LevelCardExamples | src/pages/Index.tsx:125-127 | worked values of the card: level 1 with 0 XP, level 3 with 2500 XP and level 2 with 4500 XP |
| HomePage.ChallengeBar | src/pages/Index.tsx:144-149 | the bar is the stored completed and target sets unchanged, so it reads full exactly when completed ≥ target, and with 0 ≤ completed ≤ target the percentage lies in 0..100 |
| HomePage.RowsFor | src/pages/Index.tsx:46-51 | the query's rows are exactly the stored rows of the user and day, each as many times as it is stored |
| HomePage.LookupChallenge | src/pages/Index.tsx:46-56 | `maybeSingle` finds no row exactly when the store has none for (user, day), the one row when there is one, and reports an error when there are several |
| HomePage.NewChallenge | src/pages/Index.tsx:66-78 | the new row carries the user, the catalog exercise's id and the day, and takes every column it does not send from the database defaults |
| HomePage.FetchDailyChallenge | src/pages/Index.tsx:42-88 | a failed lookup request, a lookup that finds several rows and a failed insert all keep what the card showed before and write nothing; one existing row is shown and the store is unchanged; with no row, a non-empty catalog and a successful insert, one row built from the first catalog exercise and the column defaults is appended and shown; with an empty catalog nothing is inserted and the card is cleared; the store grows by at most one row; anything newly shown belongs to the user and today |
| HomePage.FetchIsIdempotent | src/pages/Index.tsx:58-82 | after a fetch has inserted today's row, a second fetch whose lookup succeeds shows that same row and writes nothing, whatever the card showed in between |
| HomePage.FetchKeepsRowsUnique | src/pages/Index.tsx:58-82 | a fetch that runs on its own never gives any (user, day) a second row |
| HomePage.OverlappingFetchesDuplicate | src/pages/Index.tsx:18-84 | two fetches that overlap both find no row and both insert; the day then has two rows, every later lookup finds several rows, and the card keeps what it showed |
| SetEditor.InitialSets | src/pages/Workout.tsx:11-15 | the opening list has three sets, is well formed (ids 1, 2, 3 in order, no negative reps) |
| SetEditor.UpdateReps | src/pages/Workout.tsx:25-29 | every set with the id gets max(0, reps + delta); every other set, the length and the ids stay; reps never become negative |
| SetEditor.AddSet | src/pages/Workout.tsx:31-33 | the old list is kept as a prefix and exactly one set with id length + 1 and 8 reps follows |
| SetEditor.ApplyPreserves | src/pages/Workout.tsx:25-33 | both buttons keep ids 1..n in order and reps non-negative |
| SetEditor.ReplayPreserves | src/pages/Workout.tsx:25-33 | any sequence of edits keeps the list well formed |
| SetEditor.IdsUnique | src/pages/Workout.tsx:25-29 | in a well-formed list no two sets share an id, so an update touches one set |
| SetEditor.SessionStaysWellFormed | src/pages/Workout.tsx:11-33 | every editing session from the opening list stays well formed |
| WorkoutTimer.NewTimer | src/components/WorkoutTimer.tsx:11-13 | a new timer has the full duration left and is not running |
| WorkoutTimer.Seconds | src/components/WorkoutTimer.tsx:108 | the 30 s, 60 s, 90 s and 120 s buttons set 30, 60, 90 and 120 seconds respectively |
| WorkoutTimer.Step | src/components/WorkoutTimer.tsx:18-41 | a second changes nothing unless running with time left; with one second or less left it stops at 0 and fires completion, otherwise it takes exactly one second off; toggle flips running only; reset restores the duration and stops; quick-set sets the chosen value and stops; completion fires only on the last second |
| WorkoutTimer.RunStaysValid | src/components/WorkoutTimer.tsx:20-27 | time left never becomes negative under any sequence of events |
| WorkoutTimer.CompletionFiresOnce | src/components/WorkoutTimer.tsx:18-27 | completion leaves the timer stopped at 0, so the next second cannot fire it again |
| WorkoutTimer.CountdownLength | src/components/WorkoutTimer.tsx:20-26 | a running timer with n + 1 seconds left reaches 1 second left after exactly n ticks, and the next tick completes it and stops it at 0 |
| WorkoutTimer.DefaultTimerRunsOneMinute | src/components/WorkoutTimer.tsx:11-27 | a timer with the default 60-second duration, once started, is at its last second after 59 ticks and completes on the sixtieth |
| WorkoutTimer.ClockFace | src/components/WorkoutTimer.tsx:43-44 | for non-negative time, minutes × 60 + seconds = time left and 0 ≤ seconds < 60 |
| Analytics.Last30Days | src/pages/Analytics.tsx:57-60 | thirty consecutive days, today − 29 first and today last |
| Analytics.OnDayTotals | src/pages/Analytics.tsx:64-72 | filtering one day and reducing gives that day's workout count, XP sum (missing as 0) and set-count sum (no list as 0) |
| Analytics.DailyProgress | src/pages/Analytics.tsx:62-74 | thirty points in day order, each holding the count, XP sum and set sum of that day's workouts |
| Analytics.ChartAgreesWithCalendar | src/pages/Analytics.tsx:64-71 | the chart and the calendar's day map agree on the count and XP of every day in the window |
| Analytics.Tally | src/pages/Analytics.tsx:80-95 | a known exercise has its entry bumped in place; a new one is appended with count 1, the workout's XP and sets, and its name or "Unknown" |
| Analytics.KeyOf | src/pages/Analytics.tsx:82 | a workout has a key exactly when it has an exercise, and the key is that exercise's id |
| Analytics.NameOf | src/pages/Analytics.tsx:81 | the name is never empty: the exercise's name when it is non-empty, otherwise "Unknown" |
| Analytics.ExerciseMap | src/pages/Analytics.tsx:79-95 | at most one entry per workout, and no entry exactly when there is no workout; the lemmas below state keys, totals and order |
| Analytics.ExerciseMapKeysDistinct | src/pages/Analytics.tsx:79-95 | no two entries share an exercise id |
| Analytics.ExerciseMapKeys | src/pages/Analytics.tsx:79-95 | an exercise id has an entry exactly when some workout has that id |
| Analytics.ExerciseMapTotals | src/pages/Analytics.tsx:79-95 | each entry holds the number of workouts of its exercise and their XP and set sums; every count is at least 1 |
| Analytics.CountsSumToWorkouts | src/pages/Analytics.tsx:79-95 | the counts over all entries add up to the number of workouts |
| Analytics.ExerciseMapOrder | src/pages/Analytics.tsx:81-89 | entries are in the order their exercises first appear, and each entry's name comes from that first workout |
| ExerciseRanking.SortByCount | src/pages/Analytics.tsx:98 | the sort keeps the number of entries; SortPermutes, SortIsSorted and SortIsStable state the rest |
| ExerciseRanking.InsertPermutes | src/pages/Analytics.tsx:97-98 | inserting adds exactly the one entry |
| ExerciseRanking.InsertSorted | src/pages/Analytics.tsx:97-98 | inserting into a list sorted by descending count keeps it sorted |
| ExerciseRanking.InsertStable | src/pages/Analytics.tsx:97-98 | the inserted entry lands after every entry with its own count |
| ExerciseRanking.SortPermutes | src/pages/Analytics.tsx:97-98 | the sort is a permutation of the entries |
| ExerciseRanking.SortIsSorted | src/pages/Analytics.tsx:97-98 | the sorted list has non-increasing counts |
| ExerciseRanking.SortIsStable | src/pages/Analytics.tsx:97-98 | for every count, the entries with that count keep their map order |
| ExerciseRanking.DroppedRankNoHigher | src/pages/Analytics.tsx:97-99 | cutting the sorted list after n entries leaves out no entry with a higher count than one kept |
| ExerciseRanking.TopExercises | src/pages/Analytics.tsx:97-99 | min(6, n) entries, exactly the head of the sorted map, with non-increasing counts; no entry left out has a higher count than one kept; among entries of one count the ones kept are the earliest in map order |
| PersonalRecords.MaxRepsScan | src/pages/Analytics.tsx:109-120 | the best rep count is never negative, and it is 0 exactly when no date was recorded |
| PersonalRecords.MostSetsScan | src/pages/Analytics.tsx:123-131 | the best set count is never negative, and it is 0 exactly when no date was recorded |
| PersonalRecords.ScanSets | src/pages/Analytics.tsx:113-118 | a set replaces the running best only with strictly more reps, and then dates it with this workout; the result bounds every set |
| PersonalRecords.MaxRepsScanIsBest | src/pages/Analytics.tsx:109-120 | the scan finds the largest rep count of any set; when it is positive it is dated by the first workout holding a set with that many reps; otherwise it is 0 and undated |
| PersonalRecords.MostSetsScanIsBest | src/pages/Analytics.tsx:123-131 | the scan finds the largest set count of any workout, dated by the first workout with that many sets; the value is 0 exactly when it is undated |
| PersonalRecords.OfExercise | src/pages/Analytics.tsx:106 | the filter keeps only workouts of the exercise, taken from the list, and keeps every one of them |
| PersonalRecords.RecordFrom | src/pages/Analytics.tsx:133-148 | a record is pushed exactly when the best is positive, and it carries the exercise name, kind, value and date of that best |
| PersonalRecords.RecordsFor | src/pages/Analytics.tsx:105-149 | an exercise gives at most two records, all positive and named after its entry, max reps before most sets |
| PersonalRecords.RepsRecordIsBest | src/pages/Analytics.tsx:109-140 | a max-reps record exists exactly when the scan is positive; its value bounds every set of the exercise and its date is that of the first workout reaching it |
| PersonalRecords.SetsRecordIsBest | src/pages/Analytics.tsx:123-148 | a most-sets record exists exactly when the scan is positive; its value bounds every workout's set count and its date is that of the first workout reaching it |
| PersonalRecords.AllRecords | src/pages/Analytics.tsx:104-149 | at most two records per entry, every value positive |
| PersonalRecords.AllRecordsAppend | src/pages/Analytics.tsx:104-149 | records of a map split in two are the records of the first part followed by those of the second |
| PersonalRecords.RecordsInMapOrder | src/pages/Analytics.tsx:104-149 | the record list is grouped by entry in map order: each entry's records come after those of all earlier entries and before those of all later ones |
| PersonalRecords.ShownRecords | src/pages/Analytics.tsx:151 | at most eight records, a prefix of all records in map order, and all of them when there are eight or fewer |
| PersonalRecords.RecordsComeFromEntries | src/pages/Analytics.tsx:104-149 | every record is one of the records of some map entry |
| PersonalRecords.EmptyWorkoutsNoRecords | src/pages/Analytics.tsx:109-148 | when no workout carries a set list, an exercise contributes no record |
| PersonalRecords.NoRecordsExactlyWithoutSets | src/pages/Analytics.tsx:109-148 | an exercise contributes no record exactly when none of its workouts logged a set |
| PersonalRecords.RecordBoundsExerciseWorkouts | src/pages/Analytics.tsx:106-148 | a max-reps record bounds every set, and a most-sets record every set count, of every workout in the list with that exercise |
| PersonalRecords.EntryCountsItsWorkouts | src/pages/Analytics.tsx:79-106 | the workouts a record is drawn from are exactly as many as the entry counted |
| Auth.CheckEmail | src/pages/Auth.tsx:11 | an email passes exactly when it is well formed and at most 255 characters long |
| Auth.CheckSignUpPassword | src/pages/Auth.tsx:17-21 | a sign-up password passes exactly when it has at least 8 characters and contains an upper-case letter, a lower-case letter and a digit |
| Auth.CheckUsername | src/pages/Auth.tsx:22-25 | a username passes exactly when it has 3 to 20 characters, all from `[A-Za-z0-9_]` |
| Auth.ValidateSignIn | src/pages/Auth.tsx:10-13 | sign-in input passes exactly when the email passes and the password has at least 6 characters |
| Auth.ValidateSignUp | src/pages/Auth.tsx:15-26 | sign-up input passes exactly when email, password and username all pass |
| Auth.SignUpPasswordSignsIn | src/pages/Auth.tsx:12-21 | every password accepted for sign-up is accepted for sign-in |
| Auth.SignInPasswordNotEnoughForSignUp | src/pages/Auth.tsx:12-21 | the converse fails: "aaaaaa" signs in but cannot sign up |
| Auth.TwentyCharacterUsernameAccepted | src/pages/Auth.tsx:24 | a 20-character username is accepted, whatever the message says |
| Auth.HandleAuth | src/pages/Auth.tsx:53-107 | a request is sent exactly when the mode's validation passes, and it carries exactly the form's fields; otherwise the first validation error is shown |

## Left out

- Database queries, toasts, loading flags and React state plumbing: the stores are sequences of rows, and the failures of the goal and challenge queries are boolean parameters (`Backend`, `lookupOk`, `insertOk`). What the challenge card showed before a fetch is a parameter too, since every error keeps it.
- The analytics workouts query (`src/pages/Analytics.tsx:42-51`) and the profile query (`src/pages/Index.tsx:27-33`) have no failure input: the workout list, level and total XP are parameters, and a failed request, which leaves the screen without data, is not modelled.
- The challenge-catalog query's own failure is not separate: it is modelled as an empty catalog, which has the same effect.
- The columns a new challenge row does not send (target sets, completed sets, reward, completed flag) are filled by database defaults that are not in the client code; they are a `ChallengeDefaults` parameter.
- FetchKeepsRowsUnique: holds only for fetches that run one after another. Overlapping calls, which the screen's effect can start, are not interleaved in the model; OverlappingFetchesDuplicate shows the duplicate row two overlapping fetches would leave.
- SaveGoal: models one save at a time; two overlapping saves by a user with no row could each insert a row, and that interleaving is not modelled.
- FetchIsIdempotent: states the second visit for fetches that run one after another.
- `setInterval`/`clearInterval` scheduling: the timer is a step function; a `Second` event is one interval callback.
- date-fns and `Date`: days, week bounds, today and the weekday of the first calendar day are integer inputs. The chart's `MMM dd` label is replaced by the day number. The UTC day at `src/pages/Index.tsx:44` versus the local day keys elsewhere is not modelled.
- The calendar's month range (`calendarDays`) and the rendering of the grid and dots.
- Floating-point display values: the timer circle, the level and challenge bar percentages, the chart's pie labels. They are stated as integer numerator/denominator facts.
- Character counts: string lengths count characters, not UTF-16 code units.
- Auth.CheckEmail: the email format check is not modelled; whether the address is well formed is a parameter, and only the 255-character bound is checked.
- Progress: requires a target of at least 1 (the source divides by it) and uses exact rationals instead of floating point.
- LevelProgress: requires a level of at least 1. At level 0 the source takes JavaScript `%` by zero, which gives NaN, and the bar shows NaN; a negative level gives a negative span. Neither case is modelled.
- GroupWeeks: requires a non-empty day list and a weekday below 7, as the source reads `calendarDays[0].getDay()`.
- ClockFace: the minutes/seconds relation is stated only for non-negative time left, the only values the timer produces.
- The remaining screens and components are not modelled: image cropping, the install prompt and banner, routing and navigation, leaderboard and stat cards, and the profile, invite and history pages. They hold presentation, browser APIs or fixed mock content.
- Sign-in and sign-up responses from the authentication service, session redirects and profile creation are outside the model.
- XP-per-set accrual, level-up writes, challenge progress increments, set removal and set templates do not appear in the modelled code.

=== FILE: analytics.dfy ===
/** The analytics screen's aggregations: the 30-day per-day rollup and the per-exercise
    statistics map, kept in the insertion order of a JavaScript `Map`. */
module Analytics {
  import opened Records
  import WorkoutCalendar

  const WindowDays: int := 30

  /** `last30Days`: today-29 through today, ascending. */
  function Last30Days(today: int): (days: seq<int>)
    ensures |days| == WindowDays
    ensures days[0] == today - 29 && days[WindowDays - 1] == today
    ensures forall i :: 0 < i < |days| ==> days[i] == days[i - 1] + 1
  {
    seq(WindowDays, i => today - 29 + i)
  }

  /** The workouts of one day, in list order. */
  function OnDay(ws: seq<Workout>, d: int): (r: seq<Workout>)
    ensures forall w :: w in r ==> w in ws && w.day == d
  {
    if |ws| == 0 then []
    else OnDay(DropLast(ws), d) + (if Last(ws).day == d then [Last(ws)] else [])
  }

  /** Total XP of a list, a workout without XP adding nothing. */
  function SumXp(ws: seq<Workout>): int
  {
    if |ws| == 0 then 0 else SumXp(DropLast(ws)) + XpOrZero(Last(ws))
  }

  /** Total number of sets of a list, a workout without a set list adding nothing. */
  function SumSets(ws: seq<Workout>): nat
  {
    if |ws| == 0 then 0 else SumSets(DropLast(ws)) + SetCount(Last(ws))
  }

  lemma SumsSnoc(a: seq<Workout>, w: Workout)
    ensures SumXp(a + [w]) == SumXp(a) + XpOrZero(w)
    ensures SumSets(a + [w]) == SumSets(a) + SetCount(w)
  {
    assert DropLast(a + [w]) == a;
  }

  /** Filtering then reducing gives the day's count and sums. */
  lemma {:induction false} OnDayTotals(ws: seq<Workout>, d: int)
    ensures |OnDay(ws, d)| == CountOn(ws, d)
    ensures SumXp(OnDay(ws, d)) == XpOn(ws, d)
    ensures SumSets(OnDay(ws, d)) == SetsOn(ws, d)
  {
    if |ws| > 0 {
      OnDayTotals(DropLast(ws), d);
      if Last(ws).day == d {
        SumsSnoc(OnDay(DropLast(ws), d), Last(ws));
      } else {
        assert OnDay(ws, d) == OnDay(DropLast(ws), d);
      }
    }
  }

  /** One point of the progress chart (the `MMM dd` label is replaced by the day number). */
  datatype DayPoint = DayPoint(day: int, workouts: nat, xp: int, sets: nat)

  function PointFor(ws: seq<Workout>, d: int): (p: DayPoint)
    ensures p.day == d
    ensures p.workouts == CountOn(ws, d) && p.xp == XpOn(ws, d) && p.sets == SetsOn(ws, d)
  {
    OnDayTotals(ws, d);
    var dayWorkouts := OnDay(ws, d);
    DayPoint(d, |dayWorkouts|, SumXp(dayWorkouts), SumSets(dayWorkouts))
  }

  /** `dailyProgress`: thirty points, oldest first, each the count, XP sum and set sum of
      the workouts on that day. */
  function DailyProgress(ws: seq<Workout>, today: int): (pts: seq<DayPoint>)
    ensures |pts| == WindowDays
    ensures forall i :: 0 <= i < |pts| ==> pts[i].day == today - 29 + i
    ensures forall i :: 0 <= i < |pts| ==>
      pts[i].workouts == CountOn(ws, pts[i].day) &&
      pts[i].xp == XpOn(ws, pts[i].day) &&
      pts[i].sets == SetsOn(ws, pts[i].day)
  {
    var days := Last30Days(today);
    seq(WindowDays, i requires 0 <= i < WindowDays => PointFor(ws, days[i]))
  }

  /** The chart and the calendar agree on every day they both show. */
  lemma ChartAgreesWithCalendar(ws: seq<Workout>, today: int, i: int)
    requires 0 <= i < WindowDays
    ensures var p := DailyProgress(ws, today)[i];
            var m := WorkoutCalendar.WorkoutsByDate(ws);
            (p.day in m ==> p.workouts == m[p.day].count && p.xp == m[p.day].xp) &&
            (p.day !in m ==> p.workouts == 0)
  {
  }

  // ---------------------------------------------------------------- exercise map

  /** The map key: the id of the workout's exercise, None when the workout has no exercise. */
  function KeyOf(w: Workout): (k: Option<int>)
    ensures k.Some? <==> w.exercise.Some?
    ensures k.Some? ==> k.value == w.exercise.value.id
  {
    match w.exercise
    case Some(e) => Some(e.id)
    case None => None
  }

  /** The exercise's name, or "Unknown" when the workout has no exercise or the name is empty. */
  function NameOf(w: Workout): (name: string)
    ensures name != ""
    ensures name == "Unknown" <==> w.exercise.None? || w.exercise.value.name in {"", "Unknown"}
    ensures w.exercise.Some? && w.exercise.value.name != "" ==> name == w.exercise.value.name
  {
    match w.exercise
    case Some(e) => if e.name != "" then e.name else "Unknown"
    case None => "Unknown"
  }

  datatype ExerciseStats = ExerciseStats(key: Option<int>, name: string, count: nat, totalXp: int, totalSets: nat)

  /** Reference totals of the workouts with one key. */
  datatype Totals = Totals(count: nat, xp: int, sets: nat)

  function TotalsOf(ws: seq<Workout>, k: Option<int>): Totals
  {
    if |ws| == 0 then Totals(0, 0, 0)
    else
      var t := TotalsOf(DropLast(ws), k);
      var w := Last(ws);
      if KeyOf(w) == k then Totals(t.count + 1, t.xp + XpOrZero(w), t.sets + SetCount(w)) else t
  }

  /** Position of the first workout with key `k`, or `|ws|` when there is none. */
  function FirstWith(ws: seq<Workout>, k: Option<int>): (f: nat)
    ensures f <= |ws|
    ensures f < |ws| ==> KeyOf(ws[f]) == k
    ensures forall j :: 0 <= j < f && j < |ws| ==> KeyOf(ws[j]) != k
  {
    if |ws| == 0 then 0
    else
      var f := FirstWith(DropLast(ws), k);
      if f < |ws| - 1 then f else if KeyOf(Last(ws)) == k then |ws| - 1 else |ws|
  }

  /** Position of the entry with key `k`, or -1. */
  function IndexOfKey(m: seq<ExerciseStats>, k: Option<int>): (i: int)
    ensures -1 <= i < |m|
    ensures i >= 0 ==> m[i].key == k
    ensures i < 0 ==> forall j :: 0 <= j < |m| ==> m[j].key != k
  {
    if |m| == 0 then -1
    else if Last(m).key == k then |m| - 1
    else IndexOfKey(DropLast(m), k)
  }

  function Bump(s: ExerciseStats, w: Workout): ExerciseStats
  {
    s.(count := s.count + 1, totalXp := s.totalXp + XpOrZero(w), totalSets := s.totalSets + SetCount(w))
  }

  /** One round of the `forEach`: create the entry on first sight, then add the workout. */
  function Tally(m: seq<ExerciseStats>, w: Workout): (m': seq<ExerciseStats>)
    ensures IndexOfKey(m, KeyOf(w)) >= 0 ==>
      m' == m[IndexOfKey(m, KeyOf(w)) := Bump(m[IndexOfKey(m, KeyOf(w))], w)]
    ensures IndexOfKey(m, KeyOf(w)) < 0 ==>
      m' == m + [ExerciseStats(KeyOf(w), NameOf(w), 1, XpOrZero(w), SetCount(w))]
  {
    var i := IndexOfKey(m, KeyOf(w));
    if i >= 0 then m[i := Bump(m[i], w)]
    else m + [Bump(ExerciseStats(KeyOf(w), NameOf(w), 0, 0, 0), w)]
  }

  /** `exerciseMap`, as its entries in insertion order. */
  function ExerciseMap(ws: seq<Workout>): (m: seq<ExerciseStats>)
    ensures |m| <= |ws|
    ensures |m| == 0 <==> |ws| == 0
  {
    if |ws| == 0 then [] else Tally(ExerciseMap(DropLast(ws)), Last(ws))
  }

  /** No two entries share a key. */
  predicate DistinctKeys(m: seq<ExerciseStats>)
  {
    forall i, j :: 0 <= i < j < |m| ==> m[i].key != m[j].key
  }

  /** The entries' keys are exactly the keys of the workouts. */
  ghost predicate KeysAreWorkoutKeys(ws: seq<Workout>, m: seq<ExerciseStats>)
  {
    forall k :: TotalsOf(ws, k).count > 0 <==> IndexOfKey(m, k) >= 0
  }

  /** Every entry holds the count, XP sum and set sum of its exercise's workouts. */
  predicate EntriesHoldTotals(ws: seq<Workout>, m: seq<ExerciseStats>)
  {
    forall i :: 0 <= i < |m| ==>
      TotalsOf(ws, m[i].key) == Totals(m[i].count, m[i].totalXp, m[i].totalSets) && m[i].count >= 1
  }

  lemma TallyKeepsKeysDistinct(m: seq<ExerciseStats>, w: Workout)
    requires DistinctKeys(m)
    ensures DistinctKeys(Tally(m, w))
  {
    var m' := Tally(m, w);
    if IndexOfKey(m, KeyOf(w)) >= 0 {
      assert forall i :: 0 <= i < |m| ==> m'[i].key == m[i].key;
    }
  }

  lemma {:induction false} ExerciseMapKeysDistinct(ws: seq<Workout>)
    ensures DistinctKeys(ExerciseMap(ws))
  {
    if |ws| > 0 {
      ExerciseMapKeysDistinct(DropLast(ws));
      TallyKeepsKeysDistinct(ExerciseMap(DropLast(ws)), Last(ws));
    }
  }

  lemma {:induction false} ExerciseMapKeys(ws: seq<Workout>)
    ensures KeysAreWorkoutKeys(ws, ExerciseMap(ws))
  {
    if |ws| > 0 {
      var p := DropLast(ws);
      var w := Last(ws);
      ExerciseMapKeys(p);
      forall k
        ensures TotalsOf(ws, k).count > 0 <==> IndexOfKey(ExerciseMap(ws), k) >= 0
      {
        KeyPresence(ExerciseMap(p), w, k);
      }
    }
  }

  /** The step of `ExerciseMapTotals` for one entry of the tallied map. */
  lemma TallyEntryTotals(p: seq<Workout>, w: Workout, m0: seq<ExerciseStats>, i: int)
    requires DistinctKeys(m0) && KeysAreWorkoutKeys(p, m0) && EntriesHoldTotals(p, m0)
    requires 0 <= i < |Tally(m0, w)|
    ensures var e := Tally(m0, w)[i];
            TotalsOf(p + [w], e.key) == Totals(e.count, e.totalXp, e.totalSets) && e.count >= 1
  {
    assert DropLast(p + [w]) == p;
    var m := Tally(m0, w);
    var idx := IndexOfKey(m0, KeyOf(w));
    if idx >= 0 {
      if i != idx {
        assert m0[i].key != m0[idx].key;
      }
    } else if i == |m0| {
      NoCountNoTotals(p, KeyOf(w));
    }
  }

  /** Each entry holds its exercise's totals. */
  lemma {:induction false} ExerciseMapTotals(ws: seq<Workout>)
    ensures EntriesHoldTotals(ws, ExerciseMap(ws))
  {
    if |ws| > 0 {
      var p := DropLast(ws);
      ExerciseMapTotals(p);
      ExerciseMapKeysDistinct(p);
      ExerciseMapKeys(p);
      assert p + [Last(ws)] == ws;
      forall i | 0 <= i < |ExerciseMap(ws)|
        ensures var e := ExerciseMap(ws)[i];
                TotalsOf(ws, e.key) == Totals(e.count, e.totalXp, e.totalSets) && e.count >= 1
      {
        TallyEntryTotals(p, Last(ws), ExerciseMap(p), i);
      }
    }
  }

  lemma {:induction false} NoCountNoTotals(ws: seq<Workout>, k: Option<int>)
    ensures TotalsOf(ws, k).count == 0 ==> TotalsOf(ws, k) == Totals(0, 0, 0)
  {
    if |ws| > 0 {
      NoCountNoTotals(DropLast(ws), k);
    }
  }

  /** After a tally, a key is present exactly when it was before or is the new workout's. */
  lemma KeyPresence(m: seq<ExerciseStats>, w: Workout, k: Option<int>)
    ensures IndexOfKey(Tally(m, w), k) >= 0 <==> IndexOfKey(m, k) >= 0 || KeyOf(w) == k
  {
    var m' := Tally(m, w);
    if IndexOfKey(m, k) >= 0 {
      var i := IndexOfKey(m, k);
      assert m'[i].key == k;
      KeyFound(m', k, i);
    } else if KeyOf(w) == k {
      assert m'[|m'| - 1].key == k;
      KeyFound(m', k, |m'| - 1);
    } else {
      assert forall j :: 0 <= j < |m'| ==> m'[j].key != k;
    }
  }

  lemma KeyFound(m: seq<ExerciseStats>, k: Option<int>, i: int)
    requires 0 <= i < |m| && m[i].key == k
    ensures IndexOfKey(m, k) >= 0
  {
  }

  function SumCounts(m: seq<ExerciseStats>): nat
  {
    if |m| == 0 then 0 else SumCounts(DropLast(m)) + Last(m).count
  }

  lemma {:induction false} SumCountsBump(m: seq<ExerciseStats>, i: int, w: Workout)
    requires 0 <= i < |m|
    ensures SumCounts(m[i := Bump(m[i], w)]) == SumCounts(m) + 1
  {
    var m' := m[i := Bump(m[i], w)];
    if i < |m| - 1 {
      assert DropLast(m') == DropLast(m)[i := Bump(m[i], w)];
      SumCountsBump(DropLast(m), i, w);
    } else {
      assert DropLast(m') == DropLast(m);
    }
  }

  /** The counts over all entries add up to the number of workouts. */
  lemma {:induction false} CountsSumToWorkouts(ws: seq<Workout>)
    ensures SumCounts(ExerciseMap(ws)) == |ws|
  {
    if |ws| > 0 {
      CountsSumToWorkouts(DropLast(ws));
      var m0 := ExerciseMap(DropLast(ws));
      var i := IndexOfKey(m0, KeyOf(Last(ws)));
      if i >= 0 {
        SumCountsBump(m0, i, Last(ws));
      } else {
        var e := ExerciseStats(KeyOf(Last(ws)), NameOf(Last(ws)), 1, XpOrZero(Last(ws)), SetCount(Last(ws)));
        assert DropLast(m0 + [e]) == m0;
      }
    }
  }

  /** Each entry's exercise occurs among the workouts, and the entry's name is the one of
      its first workout. */
  predicate NamedByFirst(ws: seq<Workout>, m: seq<ExerciseStats>)
  {
    forall i :: 0 <= i < |m| ==>
      FirstWith(ws, m[i].key) < |ws| && m[i].name == NameOf(ws[FirstWith(ws, m[i].key)])
  }

  /** Entries sit in the order their exercises first appear. */
  predicate OrderedByFirst(ws: seq<Workout>, m: seq<ExerciseStats>)
  {
    forall i, j :: 0 <= i < j < |m| ==> FirstWith(ws, m[i].key) < FirstWith(ws, m[j].key)
  }

  predicate InFirstAppearanceOrder(ws: seq<Workout>, m: seq<ExerciseStats>)
  {
    NamedByFirst(ws, m) && OrderedByFirst(ws, m)
  }

  /** Appending a workout moves no key's first appearance that was already there. */
  lemma FirstWithSnoc(p: seq<Workout>, w: Workout, k: Option<int>)
    requires FirstWith(p, k) < |p|
    ensures FirstWith(p + [w], k) == FirstWith(p, k)
  {
    assert DropLast(p + [w]) == p;
  }

  /** Entries already present keep their first appearances when a workout is appended. */
  lemma OldEntriesKeepFirsts(p: seq<Workout>, w: Workout, m0: seq<ExerciseStats>)
    requires NamedByFirst(p, m0)
    ensures forall i :: 0 <= i < |m0| ==> FirstWith(p + [w], m0[i].key) == FirstWith(p, m0[i].key)
    ensures forall i :: 0 <= i < |m0| ==> (p + [w])[FirstWith(p, m0[i].key)] == p[FirstWith(p, m0[i].key)]
  {
    forall i | 0 <= i < |m0|
      ensures FirstWith(p + [w], m0[i].key) == FirstWith(p, m0[i].key)
    {
      FirstWithSnoc(p, w, m0[i].key);
    }
  }

  /** A workout of a known exercise only bumps its entry: keys, names and order stay. */
  lemma TallyOrderExisting(p: seq<Workout>, w: Workout, m0: seq<ExerciseStats>)
    requires InFirstAppearanceOrder(p, m0)
    requires IndexOfKey(m0, KeyOf(w)) >= 0
    ensures InFirstAppearanceOrder(p + [w], Tally(m0, w))
  {
    var m := Tally(m0, w);
    assert forall i :: 0 <= i < |m| ==> m[i].key == m0[i].key && m[i].name == m0[i].name;
    SameEntriesStayOrdered(p, w, m0, m);
  }

  /** Entries with the keys and names of an ordered map, in the same positions, stay
      ordered after a workout is appended. */
  lemma SameEntriesStayOrdered(p: seq<Workout>, w: Workout, m0: seq<ExerciseStats>, m: seq<ExerciseStats>)
    requires InFirstAppearanceOrder(p, m0)
    requires |m| == |m0|
    requires forall i :: 0 <= i < |m| ==> m[i].key == m0[i].key && m[i].name == m0[i].name
    ensures InFirstAppearanceOrder(p + [w], m)
  {
    forall i | 0 <= i < |m|
      ensures FirstWith(p + [w], m[i].key) == FirstWith(p, m0[i].key) < |p|
      ensures m[i].name == NameOf((p + [w])[FirstWith(p + [w], m[i].key)])
    {
      FirstWithSnoc(p, w, m0[i].key);
    }
  }

  /** A workout of a new exercise appends an entry named after it, after all others. */
  lemma TallyOrderNew(p: seq<Workout>, w: Workout, m0: seq<ExerciseStats>)
    requires InFirstAppearanceOrder(p, m0)
    requires IndexOfKey(m0, KeyOf(w)) < 0
    requires FirstWith(p + [w], KeyOf(w)) == |p|
    ensures InFirstAppearanceOrder(p + [w], Tally(m0, w))
  {
    var e := ExerciseStats(KeyOf(w), NameOf(w), 1, XpOrZero(w), SetCount(w));
    SameEntriesStayOrdered(p, w, m0, m0);
    AppendNewEntry(p + [w], m0, e, |p|);
  }

  /** Appending an entry whose exercise first appears after every existing entry's,
      named after that workout, keeps the map ordered. */
  lemma AppendNewEntry(ws: seq<Workout>, m0: seq<ExerciseStats>, e: ExerciseStats, at: int)
    requires InFirstAppearanceOrder(ws, m0)
    requires 0 <= at < |ws| && FirstWith(ws, e.key) == at && e.name == NameOf(ws[at])
    requires forall i :: 0 <= i < |m0| ==> FirstWith(ws, m0[i].key) < at
    ensures InFirstAppearanceOrder(ws, m0 + [e])
  {
    AppendNamedByFirst(ws, m0, e, at);
    AppendOrderedByFirst(ws, m0, e, at);
  }

  lemma AppendNamedByFirst(ws: seq<Workout>, m0: seq<ExerciseStats>, e: ExerciseStats, at: int)
    requires NamedByFirst(ws, m0)
    requires 0 <= at < |ws| && FirstWith(ws, e.key) == at && e.name == NameOf(ws[at])
    ensures NamedByFirst(ws, m0 + [e])
  {
    var m := m0 + [e];
    forall i | 0 <= i < |m|
      ensures FirstWith(ws, m[i].key) < |ws| && m[i].name == NameOf(ws[FirstWith(ws, m[i].key)])
    {
      if i < |m0| { assert m[i] == m0[i]; }
    }
  }

  lemma AppendOrderedByFirst(ws: seq<Workout>, m0: seq<ExerciseStats>, e: ExerciseStats, at: int)
    requires OrderedByFirst(ws, m0)
    requires FirstWith(ws, e.key) == at
    requires forall i :: 0 <= i < |m0| ==> FirstWith(ws, m0[i].key) < at
    ensures OrderedByFirst(ws, m0 + [e])
  {
    var m := m0 + [e];
    forall i, j | 0 <= i < j < |m|
      ensures FirstWith(ws, m[i].key) < FirstWith(ws, m[j].key)
    {
      assert m[i] == m0[i];
      if j < |m0| { assert m[j] == m0[j]; }
    }
  }

  lemma {:induction false} ExerciseMapOrder(ws: seq<Workout>)
    ensures InFirstAppearanceOrder(ws, ExerciseMap(ws))
  {
    if |ws| > 0 {
      var p := DropLast(ws);
      var w := Last(ws);
      assert p + [w] == ws;
      ExerciseMapOrder(p);
      var m0 := ExerciseMap(p);
      if IndexOfKey(m0, KeyOf(w)) < 0 {
        ExerciseMapKeys(p);
        FirstOfNewKey(p, w, m0);
        TallyOrderNew(p, w, m0);
      } else {
        TallyOrderExisting(p, w, m0);
      }
    }
  }

  /** A key the map has not seen first appears at the new workout. */
  lemma FirstOfNewKey(p: seq<Workout>, w: Workout, m0: seq<ExerciseStats>)
    requires m0 == ExerciseMap(p)
    requires IndexOfKey(m0, KeyOf(w)) < 0
    requires KeysAreWorkoutKeys(p, m0)
    ensures FirstWith(p + [w], KeyOf(w)) == |p|
  {
    assert DropLast(p + [w]) == p;
    if FirstWith(p, KeyOf(w)) < |p| {
      KeyCounted(p, KeyOf(w), FirstWith(p, KeyOf(w)));
    }
  }

  lemma {:induction false} KeyCounted(ws: seq<Workout>, k: Option<int>, j: int)
    requires 0 <= j < |ws| && KeyOf(ws[j]) == k
    ensures TotalsOf(ws, k).count > 0
  {
    if j < |ws| - 1 {
      KeyCounted(DropLast(ws), k, j);
    }
  }
}

=== FILE: auth.dfy ===
/** Sign-in and sign-up input validation and the rule that nothing is sent to the
    authentication service unless the form validates. */
module Auth {

  const MaxEmailLength: int := 255
  const MinSignInPassword: int := 6
  const MinSignUpPassword: int := 8
  const MinUsername: int := 3
  const MaxUsername: int := 20

  predicate IsUpper(c: char) { 'A' <= c <= 'Z' }
  predicate IsLower(c: char) { 'a' <= c <= 'z' }
  predicate IsDigit(c: char) { '0' <= c <= '9' }

  /** A letter, a digit or an underscore. */
  predicate IsUsernameChar(c: char)
  {
    IsUpper(c) || IsLower(c) || IsDigit(c) || c == '_'
  }

  predicate HasUpper(s: string) { exists i :: 0 <= i < |s| && IsUpper(s[i]) }
  predicate HasLower(s: string) { exists i :: 0 <= i < |s| && IsLower(s[i]) }
  predicate HasDigit(s: string) { exists i :: 0 <= i < |s| && IsDigit(s[i]) }

  /** The validation failures, in the order the schemas check them; the form shows the first. */
  datatype AuthError =
    | InvalidEmail
    | EmailTooLong
    | PasswordTooShort(min: int)
    | PasswordNoUppercase
    | PasswordNoLowercase
    | PasswordNoDigit
    | UsernameTooShort
    | UsernameTooLong
    | UsernameBadCharacter

  datatype Verdict = Valid | Invalid(first: AuthError)

  /** The email checks of both schemas. Whether the address is well formed is decided
      outside the model and passed in as `wellFormed`. */
  function CheckEmail(email: string, wellFormed: bool): (v: Verdict)
    ensures v.Valid? <==> wellFormed && |email| <= MaxEmailLength
  {
    if !wellFormed then Invalid(InvalidEmail)
    else if |email| > MaxEmailLength then Invalid(EmailTooLong)
    else Valid
  }

  /** `loginSchema.password`: at least six characters, nothing else. */
  predicate SignInPasswordOk(p: string)
  {
    |p| >= MinSignInPassword
  }

  /** `signupSchema.password`: eight characters with an upper-case letter, a lower-case
      letter and a digit. */
  function CheckSignUpPassword(p: string): (v: Verdict)
    ensures v.Valid? <==> |p| >= MinSignUpPassword && HasUpper(p) && HasLower(p) && HasDigit(p)
  {
    if |p| < MinSignUpPassword then Invalid(PasswordTooShort(MinSignUpPassword))
    else if !HasUpper(p) then Invalid(PasswordNoUppercase)
    else if !HasLower(p) then Invalid(PasswordNoLowercase)
    else if !HasDigit(p) then Invalid(PasswordNoDigit)
    else Valid
  }

  /** `signupSchema.username`: 3 to 20 characters, all from `[A-Za-z0-9_]`. */
  function CheckUsername(u: string): (v: Verdict)
    ensures v.Valid? <==> MinUsername <= |u| <= MaxUsername && forall i :: 0 <= i < |u| ==> IsUsernameChar(u[i])
  {
    if |u| < MinUsername then Invalid(UsernameTooShort)
    else if |u| > MaxUsername then Invalid(UsernameTooLong)
    else if exists i :: 0 <= i < |u| && !IsUsernameChar(u[i]) then Invalid(UsernameBadCharacter)
    else Valid
  }

  /** The first failing verdict of `a` then `b`. */
  function AndThen(a: Verdict, b: Verdict): (v: Verdict)
    ensures v.Valid? <==> a.Valid? && b.Valid?
    ensures a.Invalid? ==> v == a
  {
    if a.Invalid? then a else b
  }

  /** `loginSchema.safeParse` */
  function ValidateSignIn(email: string, emailWellFormed: bool, password: string): (v: Verdict)
    ensures v.Valid? <==> emailWellFormed && |email| <= MaxEmailLength && SignInPasswordOk(password)
  {
    AndThen(CheckEmail(email, emailWellFormed),
            if SignInPasswordOk(password) then Valid else Invalid(PasswordTooShort(MinSignInPassword)))
  }

  /** `signupSchema.safeParse` */
  function ValidateSignUp(email: string, emailWellFormed: bool, password: string, username: string): (v: Verdict)
    ensures v.Valid? <==> (CheckEmail(email, emailWellFormed).Valid?
                           && CheckSignUpPassword(password).Valid?
                           && CheckUsername(username).Valid?)
  {
    AndThen(CheckEmail(email, emailWellFormed),
            AndThen(CheckSignUpPassword(password), CheckUsername(username)))
  }

  /** The sign-up rules are strictly stronger than the sign-in rule. */
  lemma SignUpPasswordSignsIn(p: string)
    requires CheckSignUpPassword(p).Valid?
    ensures SignInPasswordOk(p)
  {
  }

  lemma SignInPasswordNotEnoughForSignUp()
    ensures SignInPasswordOk("aaaaaa") && !CheckSignUpPassword("aaaaaa").Valid?
  {
  }

  /** `.max(20)` admits twenty characters although its message says "less than 20". */
  lemma TwentyCharacterUsernameAccepted()
    ensures CheckUsername("abcdefghij0123456789").Valid?
  {
    var u := "abcdefghij0123456789";
    assert |u| == 20;
    assert forall i :: 0 <= i < |u| ==> IsUsernameChar(u[i]);
  }

  datatype Mode = SignIn | SignUp

  datatype Request =
    | SignInRequest(email: string, password: string)
    | SignUpRequest(email: string, password: string, username: string)

  /** What `handleAuth` does with the form: show a validation error, or issue one request. */
  datatype Submission = Rejected(error: AuthError) | Sent(request: Request)

  function HandleAuth(mode: Mode, email: string, emailWellFormed: bool, password: string, username: string): (s: Submission)
    ensures mode == SignIn ==>
      (s.Sent? <==> ValidateSignIn(email, emailWellFormed, password).Valid?)
    ensures mode == SignUp ==>
      (s.Sent? <==> ValidateSignUp(email, emailWellFormed, password, username).Valid?)
    ensures s.Sent? && mode == SignIn ==> s.request == SignInRequest(email, password)
    ensures s.Sent? && mode == SignUp ==> s.request == SignUpRequest(email, password, username)
    ensures s.Rejected? && mode == SignIn ==> ValidateSignIn(email, emailWellFormed, password) == Invalid(s.error)
    ensures s.Rejected? && mode == SignUp ==> ValidateSignUp(email, emailWellFormed, password, username) == Invalid(s.error)
  {
    match mode
    case SignIn =>
      (match ValidateSignIn(email, emailWellFormed, password)
       case Invalid(e) => Rejected(e)
       case Valid => Sent(SignInRequest(email, password)))
    case SignUp =>
      (match ValidateSignUp(email, emailWellFormed, password, username)
       case Invalid(e) => Rejected(e)
       case Valid => Sent(SignUpRequest(email, password, username)))
  }
}

=== FILE: calendar.dfy ===
/** The activity calendar: workouts grouped by day, the four-tier intensity shading,
    the Sunday-aligned week grid and the current consecutive-day streak. */
module WorkoutCalendar {
  import opened Records

  /** Value stored under one day key: how many workouts and how much XP. */
  datatype DayStats = DayStats(count: nat, xp: int)

  /** One step of the `forEach`: bump the entry of the workout's day, creating it at zero. */
  function AddWorkout(m: map<int, DayStats>, w: Workout): map<int, DayStats>
  {
    var existing := if w.day in m then m[w.day] else DayStats(0, 0);
    m[w.day := DayStats(existing.count + 1, existing.xp + XpOrZero(w))]
  }

  /** The `workoutsByDate` map, folded over the list in order. Every key is a day that
      has a workout; each entry holds that day's workout count and XP sum. */
  function WorkoutsByDate(ws: seq<Workout>): (m: map<int, DayStats>)
    ensures forall d :: d in m <==> CountOn(ws, d) > 0
    ensures forall d :: d in m ==> m[d] == DayStats(CountOn(ws, d), XpOn(ws, d))
  {
    if |ws| == 0 then map[]
    else
      NoWorkoutsNoXp(DropLast(ws), Last(ws).day);
      AddWorkout(WorkoutsByDate(DropLast(ws)), Last(ws))
  }

  lemma {:induction false} NoWorkoutsNoXp(ws: seq<Workout>, d: int)
    ensures CountOn(ws, d) == 0 ==> XpOn(ws, d) == 0
  {
    if |ws| > 0 {
      NoWorkoutsNoXp(DropLast(ws), d);
    }
  }

  /** Sum of the counts over all keys of a day map. */
  ghost function TotalCount(m: map<int, DayStats>): nat
    decreases |m|
  {
    if m.Keys == {} then 0
    else
      SomeKey(m.Keys);
      var k :| k in m.Keys;
      m[k].count + TotalCount(m - {k})
  }

  lemma SomeKey(s: set<int>)
    requires s != {}
    ensures exists k :: k in s
  {
    if forall k :: k !in s {
      assert false;
    }
  }

  /** The key the definition of `TotalCount` takes out first. */
  lemma TotalCountUnfold(m: map<int, DayStats>) returns (j: int)
    requires m.Keys != {}
    ensures j in m && TotalCount(m) == m[j].count + TotalCount(m - {j})
  {
    SomeKey(m.Keys);
    j :| j in m.Keys && TotalCount(m) == m[j].count + TotalCount(m - {j});
  }

  lemma RemoveSmaller(m: map<int, DayStats>, k: int)
    requires k in m
    ensures |m - {k}| < |m|
  {
    assert (m - {k}).Keys + {k} == m.Keys;
  }

  /** The total does not depend on which key is taken out first. */
  lemma {:induction false} TotalCountRemove(m: map<int, DayStats>, k: int)
    requires k in m
    ensures TotalCount(m) == m[k].count + TotalCount(m - {k})
    decreases |m|
  {
    var j := TotalCountUnfold(m);
    if j != k {
      RemoveSmaller(m, j);
      RemoveSmaller(m, k);
      var mj := m - {j};
      var mk := m - {k};
      assert k in mj && mj[k] == m[k];
      assert j in mk && mk[j] == m[j];
      TotalCountRemove(mj, k);
      TotalCountRemove(mk, j);
      assert mj - {k} == mk - {j};
    }
  }

  /** The counts across all day keys add up to the number of workouts. */
  lemma {:induction false} CountsSumToTotal(ws: seq<Workout>)
    ensures TotalCount(WorkoutsByDate(ws)) == |ws|
  {
    if |ws| > 0 {
      var m0 := WorkoutsByDate(DropLast(ws));
      var w := Last(ws);
      var m := WorkoutsByDate(ws);
      CountsSumToTotal(DropLast(ws));
      assert m == AddWorkout(m0, w);
      TotalCountRemove(m, w.day);
      assert m - {w.day} == m0 - {w.day};
      if w.day in m0 {
        TotalCountRemove(m0, w.day);
      } else {
        assert m0 - {w.day} == m0;
      }
    }
  }

  /** Every key present in the map has a count of at least one. */
  lemma PresentKeysHaveWorkouts(ws: seq<Workout>, d: int)
    requires d in WorkoutsByDate(ws)
    ensures WorkoutsByDate(ws)[d].count >= 1
  {
  }

  // ---------------------------------------------------------------- intensity

  /** Background shades: `bg-secondary/30`, `bg-primary/30`, `bg-primary/50`, `bg-primary`. */
  datatype Shade = Secondary30 | Primary30 | Primary50 | PrimaryFull

  /** Rings: none, `ring-1 ring-primary/30`, `ring-2 ring-primary/50`, `ring-2 ring-primary`. */
  datatype Ring = NoRing | Ring1Primary30 | Ring2Primary50 | Ring2Primary

  /** The intended quantisation: the count itself up to 3, with 3 standing for "3+". */
  function Tier(count: int): nat
  {
    if count <= 0 then 0 else CapAtThree(count)
  }

  function CapAtThree(n: nat): nat
  {
    if n < 3 then n else 3
  }

  function ShadeOfTier(t: nat): Shade
  {
    match t
    case 0 => Secondary30
    case 1 => Primary30
    case 2 => Primary50
    case _ => PrimaryFull
  }

  function RingOfTier(t: nat): Ring
  {
    match t
    case 0 => NoRing
    case 1 => Ring1Primary30
    case 2 => Ring2Primary50
    case _ => Ring2Primary
  }

  /** `getIntensityClass`: the shade is exactly the shade of the count's tier. */
  function IntensityClass(count: int): (s: Shade)
    ensures s == ShadeOfTier(Tier(count))
  {
    if count == 0 then Secondary30
    else if count == 1 then Primary30
    else if count == 2 then Primary50
    else if count >= 3 then PrimaryFull
    else Secondary30
  }

  /** `getIntensityRing`: the ring is exactly the ring of the count's tier. */
  function IntensityRing(count: int): (r: Ring)
    ensures r == RingOfTier(Tier(count))
  {
    if count == 0 then NoRing
    else if count == 1 then Ring1Primary30
    else if count == 2 then Ring2Primary50
    else if count >= 3 then Ring2Primary
    else NoRing
  }

  /** More workouts never give a lighter cell. */
  lemma TierMonotone(a: int, b: int)
    requires a <= b
    ensures Tier(a) <= Tier(b)
  {
  }

  /** Shade and ring partition the counts the same way. */
  lemma RingAndShadeAgree(a: int, b: int)
    ensures IntensityClass(a) == IntensityClass(b) <==> IntensityRing(a) == IntensityRing(b)
  {
  }

  // ---------------------------------------------------------------- week grid

  function Blanks<T>(n: nat): (r: seq<Option<T>>)
    ensures |r| == n
    ensures forall i :: 0 <= i < n ==> r[i] == None
  {
    if n == 0 then [] else Blanks(n - 1) + [None]
  }

  function Lift<T>(s: seq<T>): (r: seq<Option<T>>)
    ensures |r| == |s|
    ensures forall i :: 0 <= i < |s| ==> r[i] == Some(s[i])
  {
    if |s| == 0 then [] else Lift(DropLast(s)) + [Some(Last(s))]
  }

  /** The rows of the grid read left to right, top to bottom. */
  function Flatten<T>(rows: seq<seq<T>>): seq<T>
  {
    if |rows| == 0 then [] else Flatten(DropLast(rows)) + Last(rows)
  }

  /** The dates of a run of cells, skipping the blank ones. */
  function Present<T>(cells: seq<Option<T>>): seq<T>
  {
    if |cells| == 0 then []
    else Present(DropLast(cells)) + (match Last(cells) case Some(x) => [x] case None => [])
  }

  lemma FlattenSnoc<T>(rows: seq<seq<T>>, row: seq<T>)
    ensures Flatten(rows + [row]) == Flatten(rows) + row
  {
    assert DropLast(rows + [row]) == rows;
  }

  lemma {:induction false} PresentAppend<T>(a: seq<Option<T>>, b: seq<Option<T>>)
    ensures Present(a + b) == Present(a) + Present(b)
    decreases |b|
  {
    if |b| > 0 {
      assert DropLast(a + b) == a + DropLast(b);
      PresentAppend(a, DropLast(b));
    } else {
      assert a + b == a;
    }
  }

  lemma {:induction false} PresentBlanks<T>(n: nat)
    ensures Present(Blanks<T>(n)) == []
  {
    if n > 0 {
      assert DropLast(Blanks<T>(n)) == Blanks<T>(n - 1);
      PresentBlanks<T>(n - 1);
    }
  }

  lemma {:induction false} PresentLift<T>(s: seq<T>)
    ensures Present(Lift(s)) == s
  {
    if |s| > 0 {
      assert DropLast(Lift(s)) == Lift(DropLast(s));
      PresentLift(DropLast(s));
    }
  }

  /** The week grouping: leading blanks for the weekday of the first date, then the dates,
      cut into rows of seven, the last row filled up with blanks. */
  method GroupWeeks<T>(days: seq<T>, firstDayOfWeek: nat) returns (weeks: seq<seq<Option<T>>>)
    requires |days| > 0
    requires firstDayOfWeek < 7
    ensures forall k :: 0 <= k < |weeks| ==> |weeks[k]| == 7
    ensures firstDayOfWeek + |days| <= |Flatten(weeks)| < firstDayOfWeek + |days| + 7
    ensures Flatten(weeks)[..firstDayOfWeek + |days|] == Blanks(firstDayOfWeek) + Lift(days)
    ensures forall i :: firstDayOfWeek + |days| <= i < |Flatten(weeks)| ==> Flatten(weeks)[i] == None
    ensures Present(Flatten(weeks)) == days
  {
    var lead := LeadingBlanks<T>(firstDayOfWeek);
    var rows, currentWeek := FillRows(days, lead);
    ghost var pad;
    weeks, pad := CloseGrid(rows, currentWeek, Blanks(firstDayOfWeek) + Lift(days));
    GridLayout(Flatten(weeks), firstDayOfWeek, days, pad);
  }

  lemma LiftNext<T>(days: seq<T>, j: int)
    requires 0 <= j < |days|
    ensures Lift(days[..j + 1]) == Lift(days[..j]) + [Some(days[j])]
  {
    assert DropLast(days[..j + 1]) == days[..j];
  }

  lemma AppendCell<T>(flat: seq<T>, current: seq<T>, used: seq<T>, x: T)
    requires flat + current == used
    ensures flat + (current + [x]) == used + [x]
  {
  }

  lemma CloseFullRow<T>(weeks: seq<seq<T>>, row: seq<T>)
    ensures Flatten(weeks + [row]) + [] == Flatten(weeks) + row
  {
    FlattenSnoc(weeks, row);
  }

  /** After the days: a non-empty open row is padded and added. */
  method CloseGrid<T>(rows: seq<seq<Option<T>>>, currentWeek: seq<Option<T>>, ghost used: seq<Option<T>>)
    returns (weeks: seq<seq<Option<T>>>, ghost pad: nat)
    requires forall k :: 0 <= k < |rows| ==> |rows[k]| == 7
    requires |currentWeek| < 7
    requires Flatten(rows) + currentWeek == used
    ensures forall k :: 0 <= k < |weeks| ==> |weeks[k]| == 7
    ensures pad < 7
    ensures Flatten(weeks) == used + Blanks(pad)
  {
    if |currentWeek| > 0 {
      var row := PadRow(currentWeek);
      pad := 7 - |currentWeek|;
      CloseLastRow(rows, currentWeek, row, used);
      weeks := rows + [row];
    } else {
      pad := 0;
      weeks := rows;
      assert used + Blanks<T>(0) == used;
    }
  }

  /** Appending the padded last row extends the grid by exactly its padding. */
  lemma CloseLastRow<T>(weeks: seq<seq<Option<T>>>, current: seq<Option<T>>, row: seq<Option<T>>, used: seq<Option<T>>)
    requires |current| <= 7
    requires Flatten(weeks) + current == used
    requires row == current + Blanks(7 - |current|)
    ensures Flatten(weeks + [row]) == used + Blanks(7 - |current|)
  {
    FlattenSnoc(weeks, row);
    assert Flatten(weeks) + (current + Blanks(7 - |current|)) == (Flatten(weeks) + current) + Blanks(7 - |current|);
  }

  /** The leading padding: one blank for each weekday before the first day. */
  method LeadingBlanks<T>(n: nat) returns (row: seq<Option<T>>)
    ensures row == Blanks(n)
  {
    row := [];
    var i := 0;
    while i < n
      invariant i <= n
      invariant row == Blanks(i)
    {
      row := row + [None];
      i := i + 1;
    }
  }

  /** The pass over the days: append each date to the open row and close the row at seven. */
  method FillRows<T>(days: seq<T>, start: seq<Option<T>>) returns (weeks: seq<seq<Option<T>>>, currentWeek: seq<Option<T>>)
    requires |start| < 7
    ensures forall k :: 0 <= k < |weeks| ==> |weeks[k]| == 7
    ensures |currentWeek| < 7
    ensures Flatten(weeks) + currentWeek == start + Lift(days)
  {
    weeks := [];
    currentWeek := start;
    var j := 0;
    while j < |days|
      invariant j <= |days|
      invariant forall k :: 0 <= k < |weeks| ==> |weeks[k]| == 7
      invariant |currentWeek| < 7
      invariant Flatten(weeks) + currentWeek == start + Lift(days[..j])
    {
      LiftNext(days, j);
      AppendCell(Flatten(weeks), currentWeek, start + Lift(days[..j]), Some(days[j]));
      currentWeek := currentWeek + [Some(days[j])];
      if |currentWeek| == 7 {
        CloseFullRow(weeks, currentWeek);
        weeks := weeks + [currentWeek];
        currentWeek := [];
      }
      j := j + 1;
    }
    assert days[..j] == days;
  }

  /** The padding of the open row with blanks up to seven cells. */
  method PadRow<T>(current: seq<Option<T>>) returns (row: seq<Option<T>>)
    requires 0 < |current| <= 7
    ensures row == current + Blanks(7 - |current|)
  {
    row := current;
    while |row| < 7
      invariant |current| <= |row| <= 7
      invariant row == current + Blanks(|row| - |current|)
      decreases 7 - |row|
    {
      assert Blanks<T>(|row| + 1 - |current|) == Blanks<T>(|row| - |current|) + [None];
      row := row + [None];
    }
  }

  /** Reading a padded grid: the leading blanks, then the dates, then only blanks. */
  lemma GridLayout<T>(cells: seq<Option<T>>, f: nat, days: seq<T>, pad: nat)
    requires cells == Blanks(f) + Lift(days) + Blanks(pad)
    ensures cells[..f + |days|] == Blanks(f) + Lift(days)
    ensures forall i :: f + |days| <= i < |cells| ==> cells[i] == None
    ensures Present(cells) == days
  {
    var a := Blanks<T>(f) + Lift(days);
    var b := Blanks<T>(pad);
    AppendParts(a, b);
    GridDates(f, days, pad);
  }

  lemma AppendParts<T>(a: seq<T>, b: seq<T>)
    ensures (a + b)[..|a|] == a
    ensures forall i :: |a| <= i < |a + b| ==> (a + b)[i] == b[i - |a|]
  {
  }

  lemma GridDates<T>(f: nat, days: seq<T>, pad: nat)
    ensures Present(Blanks<T>(f) + Lift(days) + Blanks<T>(pad)) == days
  {
    PresentAppend(Blanks<T>(f) + Lift(days), Blanks<T>(pad));
    PresentAppend(Blanks<T>(f), Lift(days));
    PresentBlanks<T>(pad);
    PresentBlanks<T>(f);
    PresentLift(days);
    assert [] + days + [] == days;
  }

  // ---------------------------------------------------------------- streak

  /** The day keys on or before `d`. */
  function KeysUpTo(keys: set<int>, d: int): set<int>
  {
    set k | k in keys && k <= d
  }

  /** Length of the run of consecutive days present in `keys` that ends at day `d`:
      every day of the run is present and the day before it is not. */
  function RunEndingAt(keys: set<int>, d: int): (n: nat)
    ensures forall k :: d - n < k <= d ==> k in keys
    ensures d - n !in keys
    ensures n <= |KeysUpTo(keys, d)|
    decreases |KeysUpTo(keys, d)|
  {
    if d in keys then
      assert KeysUpTo(keys, d - 1) == KeysUpTo(keys, d) - {d};
      1 + RunEndingAt(keys, d - 1)
    else 0
  }

  /** The streak as the calendar promises it: the run ending today when today has a
      workout, otherwise the run ending yesterday. */
  function StreakOf(keys: set<int>, today: int): nat
  {
    if today in keys then RunEndingAt(keys, today) else RunEndingAt(keys, today - 1)
  }

  /** `currentStreak`: walk back from today while days are present, letting an empty
      today pass once. The loop has no bound of its own; it ends because each round
      either passes a present day or spends the one free pass for today. */
  method CurrentStreak(keys: set<int>, today: int) returns (streak: nat)
    ensures streak == StreakOf(keys, today)
    ensures streak <= |keys|
    ensures today !in keys && today - 1 !in keys ==> streak == 0
  {
    streak := 0;
    var checkDate := today;
    while true
      invariant checkDate <= today
      invariant checkDate == today ==> streak == 0
      invariant checkDate < today ==> streak + RunEndingAt(keys, checkDate) == StreakOf(keys, today)
      decreases |KeysUpTo(keys, checkDate)| + (if checkDate == today then 1 else 0)
    {
      if checkDate in keys {
        assert KeysUpTo(keys, checkDate - 1) == KeysUpTo(keys, checkDate) - {checkDate};
        streak := streak + 1;
        checkDate := checkDate - 1;
      } else if checkDate == today {
        assert KeysUpTo(keys, checkDate - 1) == KeysUpTo(keys, checkDate);
        checkDate := checkDate - 1;
      } else {
        break;
      }
    }
    var d := if today in keys then today else today - 1;
    SubsetSize(KeysUpTo(keys, d), keys);
  }

  lemma SubsetSize(a: set<int>, b: set<int>)
    requires a <= b
    ensures |a| <= |b|
  {
    var c := b - a;
    assert b == a + c;
    assert a * c == {};
  }

  /** Only days up to today matter: keys after today never change the streak. */
  lemma {:induction false} RunIgnoresLaterDays(keys: set<int>, keys': set<int>, d: int)
    requires forall k :: k <= d ==> (k in keys <==> k in keys')
    ensures RunEndingAt(keys, d) == RunEndingAt(keys', d)
    decreases |KeysUpTo(keys, d)|
  {
    if d in keys {
      assert KeysUpTo(keys, d - 1) == KeysUpTo(keys, d) - {d};
      RunIgnoresLaterDays(keys, keys', d - 1);
    }
  }

  lemma StreakIgnoresFuture(keys: set<int>, keys': set<int>, today: int)
    requires forall k :: k <= today ==> (k in keys <==> k in keys')
    ensures StreakOf(keys, today) == StreakOf(keys', today)
  {
    RunIgnoresLaterDays(keys, keys', today);
    RunIgnoresLaterDays(keys, keys', today - 1);
  }

  /** The streak of a workout list is computed over the keys of its day map: with a
      workout today it is the run ending today, with none today it is the run ending
      yesterday, and it never exceeds the number of days that have workouts. */
  method StreakOfWorkouts(ws: seq<Workout>, today: int) returns (streak: nat)
    ensures streak == StreakOf(WorkoutsByDate(ws).Keys, today)
    ensures streak <= |WorkoutsByDate(ws).Keys|
    ensures CountOn(ws, today) > 0 ==> streak == RunEndingAt(WorkoutsByDate(ws).Keys, today)
    ensures CountOn(ws, today) == 0 && CountOn(ws, today - 1) > 0 ==>
      streak == RunEndingAt(WorkoutsByDate(ws).Keys, today - 1) && streak >= 1
    ensures CountOn(ws, today) == 0 && CountOn(ws, today - 1) == 0 ==> streak == 0
  {
    streak := CurrentStreak(WorkoutsByDate(ws).Keys, today);
  }
}

=== FILE: home.dfy ===
/** The home screen: the level card, the daily challenge bar and the get-or-create of
    today's challenge row. */
module HomePage {
  import opened Records
  import JsMath

  const XpPerLevelStep: int := 1000

  /** What the level card shows: the XP earned into the current level, the XP span of the
      level, and the number of the next level. */
  datatype LevelCard = LevelCard(currentLevelXp: int, xpForNextLevel: int, nextLevel: int)

  /** The span of a level is a thousand XP per level number, and the XP into the level is
      the total's JavaScript remainder by that span. For a non-negative total the numerator stays strictly below
      the denominator, so the bar never fills, and it differs from the total by a whole
      number of level spans. */
  function LevelProgress(level: int, totalXp: int): (c: LevelCard)
    requires level >= 1
    ensures c.xpForNextLevel == level * XpPerLevelStep
    ensures c.nextLevel == level + 1
    ensures totalXp >= 0 ==> 0 <= c.currentLevelXp < c.xpForNextLevel
    ensures totalXp == JsMath.Quot(totalXp, c.xpForNextLevel) * c.xpForNextLevel + c.currentLevelXp
  {
    var span := level * XpPerLevelStep;
    LevelCard(JsMath.Rem(totalXp, span), span, level + 1)
  }

  /** Worked values of the level card. */
  lemma LevelCardExamples()
    ensures LevelProgress(1, 0) == LevelCard(0, 1000, 2)
    ensures LevelProgress(3, 2500) == LevelCard(2500, 3000, 4)
    ensures LevelProgress(2, 4500) == LevelCard(500, 2000, 3)
  {
  }

  /** A `daily_challenges` row. */
  datatype Challenge = Challenge(
    userId: int, exerciseId: int, date: int,
    targetSets: int, completedSets: int, xpReward: int, completed: bool)

  /** An `exercises` row. */
  datatype Exercise = Exercise(id: int, name: string, xpPerSet: int)

  /** Column values the insert does not send, so the backend fills them in with its
      defaults: the target, the progress so far, the reward and the completion flag. */
  datatype ChallengeDefaults = ChallengeDefaults(targetSets: int, completedSets: int, xpReward: int, completed: bool)

  datatype Fraction = Fraction(num: int, den: int)

  /** The challenge bar is fed the stored counts as they are: no clamping and no
      rescaling, so an over-complete row reads above the full mark. */
  function ChallengeBar(c: Challenge): (f: Fraction)
    ensures f.num == c.completedSets && f.den == c.targetSets
    ensures c.targetSets > 0 ==> (f.num >= f.den <==> c.completedSets >= c.targetSets)
    ensures c.targetSets > 0 && 0 <= c.completedSets <= c.targetSets ==> 0 <= f.num * 100 <= 100 * f.den
  {
    Fraction(c.completedSets, c.targetSets)
  }

  /** The rows of one user for one day, in store order. */
  function RowsFor(store: seq<Challenge>, user: int, day: int): (rows: seq<Challenge>)
    ensures forall c :: c in rows ==> c in store && c.userId == user && c.date == day
    ensures forall c :: c in store && c.userId == user && c.date == day ==> c in rows
    ensures forall c :: multiset(rows)[c] == if c.userId == user && c.date == day then multiset(store)[c] else 0
  {
    if |store| == 0 then []
    else
      var c := Last(store);
      assert store == DropLast(store) + [c];
      RowsFor(DropLast(store), user, day) + (if c.userId == user && c.date == day then [c] else [])
  }

  /** `.maybeSingle()`: no row, the one row, or an error when there are several. */
  datatype Lookup = NoRow | OneRow(row: Challenge) | ManyRows

  function LookupChallenge(store: seq<Challenge>, user: int, day: int): (l: Lookup)
    ensures l.NoRow? <==> |RowsFor(store, user, day)| == 0
    ensures l.NoRow? <==> forall c :: c in store ==> c.userId != user || c.date != day
    ensures l.OneRow? <==> |RowsFor(store, user, day)| == 1
    ensures l.OneRow? ==> RowsFor(store, user, day) == [l.row]
  {
    var rows := RowsFor(store, user, day);
    if |rows| == 0 then NoRow
    else
      assert rows[0] in rows;
      if |rows| == 1 then OneRow(rows[0]) else ManyRows
  }

  /** The row the insert creates: the user, the exercise and the day it sends, and the
      backend's defaults for every other column. */
  function NewChallenge(user: int, ex: Exercise, day: int, defaults: ChallengeDefaults): (c: Challenge)
    ensures c.userId == user && c.exerciseId == ex.id && c.date == day
    ensures c.targetSets == defaults.targetSets && c.completedSets == defaults.completedSets
    ensures c.xpReward == defaults.xpReward && c.completed == defaults.completed
  {
    Challenge(user, ex.id, day, defaults.targetSets, defaults.completedSets, defaults.xpReward, defaults.completed)
  }

  /** What the card ends up showing and the store afterwards. */
  datatype FetchResult = FetchResult(shown: Option<Challenge>, store: seq<Challenge>)

  /** `fetchDailyChallenge`: show today's row if there is one; otherwise create it from the
      first row of the exercise catalog and show it. `previous` is what the card showed
      before the call. Every error is thrown before the card is set, so a failed lookup
      request, a lookup that finds several rows and a failed insert all keep `previous`.
      An empty catalog (or a failed catalog query, whose error is not checked) creates
      nothing and clears the card. */
  function FetchDailyChallenge(store: seq<Challenge>, user: int, today: int,
                               catalog: seq<Exercise>, defaults: ChallengeDefaults,
                               previous: Option<Challenge>, lookupOk: bool, insertOk: bool): (r: FetchResult)
    ensures !lookupOk ==> r == FetchResult(previous, store)
    ensures lookupOk && LookupChallenge(store, user, today).ManyRows? ==> r == FetchResult(previous, store)
    ensures lookupOk && LookupChallenge(store, user, today).OneRow? ==>
      r == FetchResult(Some(LookupChallenge(store, user, today).row), store)
    ensures lookupOk && LookupChallenge(store, user, today).NoRow? && |catalog| > 0 && insertOk ==>
      r.store == store + [NewChallenge(user, catalog[0], today, defaults)] &&
      r.shown == Some(NewChallenge(user, catalog[0], today, defaults))
    ensures lookupOk && LookupChallenge(store, user, today).NoRow? && |catalog| > 0 && !insertOk ==>
      r == FetchResult(previous, store)
    ensures lookupOk && LookupChallenge(store, user, today).NoRow? && |catalog| == 0 ==>
      r == FetchResult(None, store)
    ensures r.store == store || |r.store| == |store| + 1
    ensures r.shown == previous || r.shown.None? ||
            (r.shown.value.userId == user && r.shown.value.date == today)
  {
    if !lookupOk then FetchResult(previous, store)
    else
      match LookupChallenge(store, user, today)
      case ManyRows => FetchResult(previous, store)
      case OneRow(c) => FetchResult(Some(c), store)
      case NoRow =>
        if |catalog| == 0 then FetchResult(None, store)
        else
          var c := NewChallenge(user, catalog[0], today, defaults);
          if insertOk then FetchResult(Some(c), store + [c]) else FetchResult(previous, store)
  }

  lemma AppendedRowIsFound(store: seq<Challenge>, c: Challenge)
    ensures RowsFor(store + [c], c.userId, c.date) == RowsFor(store, c.userId, c.date) + [c]
    ensures forall u, d :: (u, d) != (c.userId, c.date) ==> RowsFor(store + [c], u, d) == RowsFor(store, u, d)
  {
    assert DropLast(store + [c]) == store;
  }

  /** Creating today's row makes it the one the next visit finds: a second fetch that
      completes its lookup shows the same row and writes nothing, whatever the card showed
      in between and whether or not an insert would succeed. */
  lemma FetchIsIdempotent(store: seq<Challenge>, user: int, today: int,
                          catalog: seq<Exercise>, defaults: ChallengeDefaults,
                          previous: Option<Challenge>, insertOk: bool,
                          shownBefore: Option<Challenge>, insertOk2: bool)
    requires LookupChallenge(store, user, today).NoRow?
    ensures var first := FetchDailyChallenge(store, user, today, catalog, defaults, previous, true, insertOk);
            first.store != store ==>
              FetchDailyChallenge(first.store, user, today, catalog, defaults, shownBefore, true, insertOk2) == first
  {
    var first := FetchDailyChallenge(store, user, today, catalog, defaults, previous, true, insertOk);
    if first.store != store {
      AppendedRowIsFound(store, NewChallenge(user, catalog[0], today, defaults));
    }
  }

  /** A fetch that runs on its own never creates a second row for any (user, day). */
  lemma FetchKeepsRowsUnique(store: seq<Challenge>, user: int, today: int,
                             catalog: seq<Exercise>, defaults: ChallengeDefaults,
                             previous: Option<Challenge>, lookupOk: bool, insertOk: bool,
                             u: int, d: int)
    requires |RowsFor(store, u, d)| <= 1
    ensures |RowsFor(FetchDailyChallenge(store, user, today, catalog, defaults, previous, lookupOk, insertOk).store, u, d)| <= 1
  {
    var r := FetchDailyChallenge(store, user, today, catalog, defaults, previous, lookupOk, insertOk);
    if r.store != store {
      AppendedRowIsFound(store, NewChallenge(user, catalog[0], today, defaults));
    }
  }

  /** Two fetches that overlap both look up the same store, both find no row and both
      insert. The store then holds two rows for the day, every later lookup of that day
      fails with several rows, and the card keeps whatever it showed. */
  lemma OverlappingFetchesDuplicate(store: seq<Challenge>, user: int, today: int,
                                    catalog: seq<Exercise>, defaults: ChallengeDefaults,
                                    previous: Option<Challenge>, later: Option<Challenge>, insertOk: bool)
    requires LookupChallenge(store, user, today).NoRow? && |catalog| > 0
    ensures var c := NewChallenge(user, catalog[0], today, defaults);
            var each := FetchDailyChallenge(store, user, today, catalog, defaults, previous, true, true);
            var both := store + [c] + [c];
            each.store == store + [c] &&
            LookupChallenge(both, user, today).ManyRows? &&
            FetchDailyChallenge(both, user, today, catalog, defaults, later, true, insertOk) == FetchResult(later, both)
  {
    var c := NewChallenge(user, catalog[0], today, defaults);
    AppendedRowIsFound(store, c);
    AppendedRowIsFound(store + [c], c);
  }
}

=== FILE: js_math.dfy ===
/** JavaScript's number operators where they differ from Dafny's Euclidean ones. */
module JsMath {

  function Abs(x: int): nat
  {
    if x < 0 then -x else x
  }

  function Max(a: int, b: int): int
  {
    if a < b then b else a
  }

  function Min(a: int, b: int): int
  {
    if a < b then a else b
  }

  /** The quotient rounded toward zero. */
  function Quot(a: int, b: int): int
    requires b != 0
  {
    var q := Abs(a) / Abs(b);
    if (a < 0) == (b < 0) then q else -q
  }

  /** JavaScript `a % b` on integers: the remainder of division truncated toward zero,
      which takes the sign of the dividend. */
  function Rem(a: int, b: int): (r: int)
    requires b != 0
    ensures Abs(r) < Abs(b)
    ensures a >= 0 ==> r >= 0
    ensures a < 0 ==> r <= 0
    ensures a == Quot(a, b) * b + r
  {
    var q := Abs(a) / Abs(b);
    var m := Abs(a) % Abs(b);
    assert Abs(a) == q * Abs(b) + m;
    if a >= 0 then
      assert Quot(a, b) * b == q * Abs(b);
      m
    else
      assert Quot(a, b) * b == -(q * Abs(b));
      -m
  }

  /** For a non-negative dividend JavaScript's remainder coincides with Dafny's. */
  lemma RemOfNonNegative(a: int, b: int)
    requires a >= 0 && b > 0
    ensures Rem(a, b) == a % b
  {
  }
}

=== FILE: personal_records.dfy ===
/** Personal records: per exercise, in map order, the most reps in one set and the most
    sets in one workout, each with the date of the first workout that reached it, and
    the first eight records overall. */
module PersonalRecords {
  import opened Records
  import Analytics

  const MaxShown: int := 8

  /** The running best of a scan and the `completed_at` of the workout that set it. */
  datatype Best = Best(value: int, date: Option<int>)

  const NoBest: Best := Best(0, None)

  // ---------------------------------------------------------------- max reps

  /** Some set of `w` has exactly `v` reps. */
  predicate HasSetWithReps(w: Workout, v: int)
  {
    w.sets.Some? && exists j :: 0 <= j < |w.sets.value| && w.sets.value[j].reps == v
  }

  /** No set of `w` has more than `v` reps. */
  predicate RepsAtMost(w: Workout, v: int)
  {
    w.sets.Some? ==> forall j :: 0 <= j < |w.sets.value| ==> w.sets.value[j].reps <= v
  }

  /** The scan over one workout's sets: a set replaces the best only with strictly more reps. */
  function ScanSets(ss: seq<SetEntry>, at: int, b: Best): (r: Best)
    ensures r.value >= b.value
    ensures r.value == b.value ==> r == b
    ensures r.value > b.value ==> r.date == Some(at) && exists j :: 0 <= j < |ss| && ss[j].reps == r.value
    ensures forall j :: 0 <= j < |ss| ==> ss[j].reps <= r.value
  {
    if |ss| == 0 then b
    else
      var r0 := ScanSets(DropLast(ss), at, b);
      if Last(ss).reps > r0.value then Best(Last(ss).reps, Some(at)) else r0
  }

  /** The scan over the exercise's workouts for max reps. */
  function MaxRepsScan(ws: seq<Workout>): (b: Best)
    ensures b.value >= 0
    ensures b.value == 0 <==> b.date.None?
  {
    if |ws| == 0 then NoBest
    else
      var b := MaxRepsScan(DropLast(ws));
      match Last(ws).sets
      case Some(ss) => ScanSets(ss, Last(ws).completedAt, b)
      case None => b
  }

  /** Position of the first workout with a set of exactly `v` reps, or `|ws|`. */
  function FirstWithReps(ws: seq<Workout>, v: int): (f: nat)
    ensures f <= |ws|
    ensures f < |ws| ==> HasSetWithReps(ws[f], v)
    ensures forall i :: 0 <= i < f && i < |ws| ==> !HasSetWithReps(ws[i], v)
  {
    if |ws| == 0 then 0
    else
      var f := FirstWithReps(DropLast(ws), v);
      if f < |ws| - 1 then f else if HasSetWithReps(Last(ws), v) then |ws| - 1 else |ws|
  }

  /** The max-reps scan finds the largest rep count of any set, and dates it by the first
      workout holding a set with that many reps; with no positive set it stays at 0 and
      undated. */
  lemma {:induction false} MaxRepsScanIsBest(ws: seq<Workout>)
    ensures var b := MaxRepsScan(ws);
      b.value >= 0 &&
      (b.value == 0 <==> b.date.None?) &&
      (forall i :: 0 <= i < |ws| ==> RepsAtMost(ws[i], b.value)) &&
      (b.value > 0 ==> FirstWithReps(ws, b.value) < |ws| &&
                       b.date == Some(ws[FirstWithReps(ws, b.value)].completedAt))
  {
    if |ws| > 0 {
      var p := DropLast(ws);
      var w := Last(ws);
      MaxRepsScanIsBest(p);
      var b0 := MaxRepsScan(p);
      var b := MaxRepsScan(ws);
      if b.value > b0.value {
        // A strictly larger value: no earlier workout reaches it, the last one does.
        forall i | 0 <= i < |p|
          ensures !HasSetWithReps(ws[i], b.value)
        {
          assert ws[i] == p[i];
        }
        assert HasSetWithReps(w, b.value);
      }
    }
  }

  // ---------------------------------------------------------------- most sets

  /** The scan for most sets: a workout replaces the best only with strictly more sets. */
  function MostSetsScan(ws: seq<Workout>): (b: Best)
    ensures b.value >= 0
    ensures b.value == 0 <==> b.date.None?
  {
    if |ws| == 0 then NoBest
    else
      var b := MostSetsScan(DropLast(ws));
      if SetCount(Last(ws)) > b.value then Best(SetCount(Last(ws)), Some(Last(ws).completedAt)) else b
  }

  /** Position of the first workout with exactly `v` sets, or `|ws|`. */
  function FirstWithSets(ws: seq<Workout>, v: int): (f: nat)
    ensures f <= |ws|
    ensures f < |ws| ==> SetCount(ws[f]) == v
    ensures forall i :: 0 <= i < f && i < |ws| ==> SetCount(ws[i]) != v
  {
    if |ws| == 0 then 0
    else
      var f := FirstWithSets(DropLast(ws), v);
      if f < |ws| - 1 then f else if SetCount(Last(ws)) == v then |ws| - 1 else |ws|
  }

  /** The most-sets scan finds the largest set count of any workout, dated by the first
      workout that has that many sets. */
  lemma {:induction false} MostSetsScanIsBest(ws: seq<Workout>)
    ensures var b := MostSetsScan(ws);
      (b.value == 0 <==> b.date.None?) &&
      (forall i :: 0 <= i < |ws| ==> SetCount(ws[i]) <= b.value) &&
      (b.value > 0 ==> FirstWithSets(ws, b.value) < |ws| &&
                       b.date == Some(ws[FirstWithSets(ws, b.value)].completedAt))
  {
    if |ws| > 0 {
      var p := DropLast(ws);
      MostSetsScanIsBest(p);
      var b0 := MostSetsScan(p);
      var b := MostSetsScan(ws);
      if b.value > b0.value {
        forall i | 0 <= i < |p|
          ensures SetCount(ws[i]) != b.value
        {
          assert ws[i] == p[i];
        }
      }
    }
  }

  // ---------------------------------------------------------------- the records list

  datatype Kind = MaxReps | MostSets

  datatype PersonalRecord = PersonalRecord(exercise: string, kind: Kind, value: int, date: int)

  /** The workouts of one exercise, in list order. */
  function OfExercise(ws: seq<Workout>, k: Option<int>): (r: seq<Workout>)
    ensures forall w :: w in r ==> w in ws && Analytics.KeyOf(w) == k
    ensures forall i :: 0 <= i < |ws| && Analytics.KeyOf(ws[i]) == k ==> ws[i] in r
  {
    if |ws| == 0 then []
    else OfExercise(DropLast(ws), k) + (if Analytics.KeyOf(Last(ws)) == k then [Last(ws)] else [])
  }

  /** One kind of record, emitted only when its best value is positive. */
  function RecordFrom(name: string, kind: Kind, b: Best): (r: seq<PersonalRecord>)
    requires b.value > 0 ==> b.date.Some?
    ensures |r| == 1 <==> b.value > 0
    ensures |r| <= 1
    ensures forall i :: 0 <= i < |r| ==>
      r[i].exercise == name && r[i].kind == kind && r[i].value == b.value && Some(r[i].date) == b.date
  {
    if b.value > 0 then [PersonalRecord(name, kind, b.value, b.date.value)] else []
  }

  /** The records one exercise contributes: max reps first, then most sets, each only
      when its value is positive. */
  function RecordsFor(e: Analytics.ExerciseStats, ws: seq<Workout>): (r: seq<PersonalRecord>)
    ensures |r| <= 2
    ensures forall i :: 0 <= i < |r| ==> r[i].exercise == e.name && r[i].value > 0
    ensures |r| == 2 ==> r[0].kind == MaxReps && r[1].kind == MostSets
  {
    var ew := OfExercise(ws, e.key);
    MaxRepsScanIsBest(ew);
    MostSetsScanIsBest(ew);
    RecordFrom(e.name, MaxReps, MaxRepsScan(ew)) + RecordFrom(e.name, MostSets, MostSetsScan(ew))
  }

  /** A max-reps record is present exactly when some set of the exercise has positive
      reps; it comes first, its value bounds every set and its date is that of the first
      workout reaching it. */
  lemma RepsRecordIsBest(e: Analytics.ExerciseStats, ws: seq<Workout>)
    ensures var r := RecordsFor(e, ws);
            var ew := OfExercise(ws, e.key);
            (MaxRepsScan(ew).value > 0 <==> |r| > 0 && r[0].kind == MaxReps) &&
            (forall i :: 0 <= i < |r| && r[i].kind == MaxReps ==>
              (forall j :: 0 <= j < |ew| ==> RepsAtMost(ew[j], r[i].value)) &&
              FirstWithReps(ew, r[i].value) < |ew| &&
              r[i].date == ew[FirstWithReps(ew, r[i].value)].completedAt)
  {
    var ew := OfExercise(ws, e.key);
    MaxRepsScanIsBest(ew);
    MostSetsScanIsBest(ew);
    var head := RecordFrom(e.name, MaxReps, MaxRepsScan(ew));
    var tail := RecordFrom(e.name, MostSets, MostSetsScan(ew));
    assert RecordsFor(e, ws) == head + tail;
  }

  /** A most-sets record is present exactly when some workout of the exercise has a set;
      it comes last, its value bounds every workout's set count and its date is that of
      the first workout reaching it. */
  lemma SetsRecordIsBest(e: Analytics.ExerciseStats, ws: seq<Workout>)
    ensures var r := RecordsFor(e, ws);
            var ew := OfExercise(ws, e.key);
            (MostSetsScan(ew).value > 0 <==> |r| > 0 && r[|r| - 1].kind == MostSets) &&
            (forall i :: 0 <= i < |r| && r[i].kind == MostSets ==>
              (forall j :: 0 <= j < |ew| ==> SetCount(ew[j]) <= r[i].value) &&
              FirstWithSets(ew, r[i].value) < |ew| &&
              r[i].date == ew[FirstWithSets(ew, r[i].value)].completedAt)
  {
    var ew := OfExercise(ws, e.key);
    MaxRepsScanIsBest(ew);
    MostSetsScanIsBest(ew);
    var head := RecordFrom(e.name, MaxReps, MaxRepsScan(ew));
    var tail := RecordFrom(e.name, MostSets, MostSetsScan(ew));
    assert RecordsFor(e, ws) == head + tail;
  }

  /** A record bounds every workout of its exercise in the whole list: no set of such a
      workout has more reps than a max-reps record, and none has more sets than a
      most-sets record. */
  lemma RecordBoundsExerciseWorkouts(e: Analytics.ExerciseStats, ws: seq<Workout>, i: int, j: int)
    requires 0 <= i < |RecordsFor(e, ws)|
    requires 0 <= j < |ws| && Analytics.KeyOf(ws[j]) == e.key
    ensures RecordsFor(e, ws)[i].kind == MaxReps ==> RepsAtMost(ws[j], RecordsFor(e, ws)[i].value)
    ensures RecordsFor(e, ws)[i].kind == MostSets ==> SetCount(ws[j]) <= RecordsFor(e, ws)[i].value
  {
    var ew := OfExercise(ws, e.key);
    assert ws[j] in ew;
    var k :| 0 <= k < |ew| && ew[k] == ws[j];
    RepsRecordIsBest(e, ws);
    SetsRecordIsBest(e, ws);
  }

  /** The records of every entry of the exercise map, in map order. */
  function AllRecords(m: seq<Analytics.ExerciseStats>, ws: seq<Workout>): (r: seq<PersonalRecord>)
    ensures |r| <= 2 * |m|
    ensures forall i :: 0 <= i < |r| ==> r[i].value > 0
  {
    if |m| == 0 then [] else AllRecords(DropLast(m), ws) + RecordsFor(Last(m), ws)
  }

  /** Records of a map split in two are the records of the first part followed by those of the second. */
  lemma {:induction false} AllRecordsAppend(a: seq<Analytics.ExerciseStats>, b: seq<Analytics.ExerciseStats>, ws: seq<Workout>)
    ensures AllRecords(a + b, ws) == AllRecords(a, ws) + AllRecords(b, ws)
    decreases |b|
  {
    if |b| == 0 {
      assert a + b == a;
    } else {
      assert DropLast(a + b) == a + DropLast(b);
      assert Last(a + b) == Last(b);
      AllRecordsAppend(a, DropLast(b), ws);
    }
  }

  /** The list is grouped by entry in map order: the records of entry `j` sit between those
      of every earlier entry and those of every later one. */
  lemma RecordsInMapOrder(m: seq<Analytics.ExerciseStats>, ws: seq<Workout>, j: int)
    requires 0 <= j < |m|
    ensures AllRecords(m, ws) == AllRecords(m[..j], ws) + RecordsFor(m[j], ws) + AllRecords(m[j + 1..], ws)
  {
    assert m == m[..j] + [m[j]] + m[j + 1..];
    AllRecordsAppend(m[..j] + [m[j]], m[j + 1..], ws);
    AllRecordsAppend(m[..j], [m[j]], ws);
    assert AllRecords([m[j]], ws) == AllRecords([], ws) + RecordsFor(m[j], ws);
  }

  /** The records on screen: the first eight in map order. */
  function ShownRecords(ws: seq<Workout>): (r: seq<PersonalRecord>)
    ensures |r| <= MaxShown
    ensures r <= AllRecords(Analytics.ExerciseMap(ws), ws)
    ensures |r| == MaxShown || r == AllRecords(Analytics.ExerciseMap(ws), ws)
  {
    var all := AllRecords(Analytics.ExerciseMap(ws), ws);
    if |all| <= MaxShown then all else all[..MaxShown]
  }

  /** Every record belongs to an entry of the map and carries that entry's name. */
  lemma {:induction false} RecordsComeFromEntries(m: seq<Analytics.ExerciseStats>, ws: seq<Workout>, i: int)
    requires 0 <= i < |AllRecords(m, ws)|
    ensures exists j :: 0 <= j < |m| && AllRecords(m, ws)[i] in RecordsFor(m[j], ws)
  {
    var j, k := SourceEntry(m, ws, i);
  }

  /** The index of the entry a record came from. */
  lemma {:induction false} SourceEntry(m: seq<Analytics.ExerciseStats>, ws: seq<Workout>, i: int) returns (j: int, k: int)
    requires 0 <= i < |AllRecords(m, ws)|
    ensures 0 <= j < |m| && 0 <= k < |RecordsFor(m[j], ws)| && AllRecords(m, ws)[i] == RecordsFor(m[j], ws)[k]
  {
    var p := DropLast(m);
    var before := AllRecords(p, ws);
    var last := RecordsFor(Last(m), ws);
    assert AllRecords(m, ws) == before + last;
    if i < |before| {
      j, k := SourceEntry(p, ws, i);
      assert m[j] == p[j];
    } else {
      j, k := |m| - 1, i - |before|;
    }
  }

  /** When no workout in the list has a set list, an exercise contributes no record. */
  lemma EmptyWorkoutsNoRecords(e: Analytics.ExerciseStats, ws: seq<Workout>)
    requires forall w :: w in ws ==> w.sets.None?
    ensures RecordsFor(e, ws) == []
  {
    var ew := OfExercise(ws, e.key);
    MaxRepsScanIsBest(ew);
    MostSetsScanIsBest(ew);
    NoSetsScans(ew);
  }

  /** None of the workouts logged a set. */
  predicate NoSetLogged(ws: seq<Workout>)
  {
    forall j :: 0 <= j < |ws| ==> SetCount(ws[j]) == 0
  }

  /** An exercise contributes no record exactly when none of its workouts logged a set:
      a single logged set already makes a most-sets record. */
  lemma NoRecordsExactlyWithoutSets(e: Analytics.ExerciseStats, ws: seq<Workout>)
    ensures RecordsFor(e, ws) == [] <==> NoSetLogged(OfExercise(ws, e.key))
  {
    var ew := OfExercise(ws, e.key);
    MaxRepsScanIsBest(ew);
    MostSetsScanIsBest(ew);
    var reps := MaxRepsScan(ew);
    var most := MostSetsScan(ew);
    assert RecordsFor(e, ws) == RecordFrom(e.name, MaxReps, reps) + RecordFrom(e.name, MostSets, most);
    if NoSetLogged(ew) {
      // A positive best would be dated by a workout holding a set.
      forall i | 0 <= i < |ew|
        ensures !HasSetWithReps(ew[i], reps.value)
      {
      }
      assert reps.value == 0 && most.value == 0;
      assert RecordFrom(e.name, MaxReps, reps) == [] && RecordFrom(e.name, MostSets, most) == [];
      assert RecordsFor(e, ws) == [];
    } else {
      var j :| 0 <= j < |ew| && SetCount(ew[j]) != 0;
      assert most.value > 0;
      assert |RecordFrom(e.name, MostSets, most)| == 1;
      assert RecordsFor(e, ws) != [];
      assert !(forall i :: 0 <= i < |ew| ==> SetCount(ew[i]) == 0);
    }
  }

  lemma {:induction false} NoSetsScans(ws: seq<Workout>)
    requires forall w :: w in ws ==> w.sets.None?
    ensures MaxRepsScan(ws) == NoBest && MostSetsScan(ws) == NoBest
  {
    if |ws| > 0 {
      NoSetsScans(DropLast(ws));
    }
  }

  /** The workouts a record is drawn from are exactly as many as its entry counted. */
  lemma {:induction false} OfExerciseSize(ws: seq<Workout>, k: Option<int>)
    ensures |OfExercise(ws, k)| == Analytics.TotalsOf(ws, k).count
  {
    if |ws| > 0 {
      OfExerciseSize(DropLast(ws), k);
    }
  }

  lemma EntryCountsItsWorkouts(ws: seq<Workout>, i: int)
    requires 0 <= i < |Analytics.ExerciseMap(ws)|
    ensures |OfExercise(ws, Analytics.ExerciseMap(ws)[i].key)| == Analytics.ExerciseMap(ws)[i].count
  {
    Analytics.ExerciseMapTotals(ws);
    OfExerciseSize(ws, Analytics.ExerciseMap(ws)[i].key);
  }
}

=== FILE: ranking.dfy ===
/** `topExercises`: the exercise entries sorted by workout count, most first, and cut
    to six. `Array.prototype.sort` is stable, so entries with equal counts keep their
    map order; the model sorts by stable insertion. */
module ExerciseRanking {
  import opened Records
  import Analytics

  type Entry = Analytics.ExerciseStats

  const TopCount: int := 6

  predicate SortedByCount(s: seq<Entry>)
  {
    forall i, j :: 0 <= i < j < |s| ==> s[i].count >= s[j].count
  }

  /** The entries with count `c`, in order. Comparing these for every `c` states stability. */
  function WithCount(s: seq<Entry>, c: nat): seq<Entry>
  {
    if |s| == 0 then []
    else (if s[0].count == c then [s[0]] else []) + WithCount(s[1..], c)
  }

  lemma {:induction false} WithCountAppend(a: seq<Entry>, b: seq<Entry>, c: nat)
    ensures WithCount(a + b, c) == WithCount(a, c) + WithCount(b, c)
  {
    if |a| > 0 {
      assert (a + b)[0] == a[0];
      assert (a + b)[1..] == a[1..] + b;
      WithCountAppend(a[1..], b, c);
      calc {
        WithCount(a + b, c);
        (if a[0].count == c then [a[0]] else []) + WithCount(a[1..] + b, c);
        (if a[0].count == c then [a[0]] else []) + (WithCount(a[1..], c) + WithCount(b, c));
      }
    } else {
      assert a + b == b;
    }
  }

  lemma {:induction false} WithCountNone(s: seq<Entry>, c: nat)
    requires forall i :: 0 <= i < |s| ==> s[i].count < c
    ensures WithCount(s, c) == []
  {
    if |s| > 0 {
      WithCountNone(s[1..], c);
    }
  }

  /** Place `x` in front of the first entry with a strictly smaller count, so it lands
      after every entry with its own count: higher counts first. */
  function Insert(t: seq<Entry>, x: Entry): (r: seq<Entry>)
    ensures |r| == |t| + 1
  {
    if |t| == 0 then [x]
    else if t[0].count < x.count then [x] + t
    else [t[0]] + Insert(t[1..], x)
  }

  /** Insertion adds exactly `x`. */
  lemma {:induction false} InsertPermutes(t: seq<Entry>, x: Entry)
    ensures multiset(Insert(t, x)) == multiset(t) + multiset{x}
  {
    if |t| > 0 && t[0].count >= x.count {
      InsertPermutes(t[1..], x);
      assert t == [t[0]] + t[1..];
    }
  }

  /** Every entry of `Insert(t, x)` is `x` or an entry of `t`. */
  lemma InsertMembers(t: seq<Entry>, x: Entry, j: int)
    requires 0 <= j < |Insert(t, x)|
    ensures Insert(t, x)[j] == x || exists k :: 0 <= k < |t| && t[k] == Insert(t, x)[j]
  {
    InsertPermutes(t, x);
    var y := Insert(t, x)[j];
    assert y in multiset(Insert(t, x));
    if y != x {
      assert y in multiset(t);
      assert y in t;
    }
  }

  lemma {:induction false} InsertSorted(t: seq<Entry>, x: Entry)
    requires SortedByCount(t)
    ensures SortedByCount(Insert(t, x))
  {
    if |t| > 0 && t[0].count >= x.count {
      InsertSorted(t[1..], x);
      var r := Insert(t[1..], x);
      forall j | 0 <= j < |r|
        ensures t[0].count >= r[j].count
      {
        InsertMembers(t[1..], x, j);
        if r[j] != x {
          var k :| 0 <= k < |t[1..]| && t[1..][k] == r[j];
          assert t[k + 1] == r[j];
        }
      }
    }
  }

  lemma {:induction false} InsertStable(t: seq<Entry>, x: Entry, c: nat)
    requires SortedByCount(t)
    ensures WithCount(Insert(t, x), c) == WithCount(t, c) + (if x.count == c then [x] else [])
  {
    if |t| == 0 {
    } else if t[0].count < x.count {
      assert Insert(t, x)[1..] == t;
      if x.count == c {
        WithCountNone(t, c);
      }
    } else {
      assert Insert(t, x)[1..] == Insert(t[1..], x);
      InsertStable(t[1..], x, c);
    }
  }

  function SortByCount(s: seq<Entry>): (r: seq<Entry>)
    ensures |r| == |s|
  {
    if |s| == 0 then [] else Insert(SortByCount(DropLast(s)), Last(s))
  }

  /** The sort is a permutation of its input. */
  lemma {:induction false} SortPermutes(s: seq<Entry>)
    ensures multiset(SortByCount(s)) == multiset(s)
  {
    if |s| > 0 {
      var p := DropLast(s);
      var x := Last(s);
      calc {
        multiset(SortByCount(s));
        multiset(Insert(SortByCount(p), x));
        { InsertPermutes(SortByCount(p), x); }
        multiset(SortByCount(p)) + multiset{x};
        { SortPermutes(p); }
        multiset(p) + multiset{x};
        multiset(p + [x]);
        { assert p + [x] == s; }
        multiset(s);
      }
    }
  }

  lemma {:induction false} SortIsSorted(s: seq<Entry>)
    ensures SortedByCount(SortByCount(s))
  {
    if |s| > 0 {
      SortIsSorted(DropLast(s));
      InsertSorted(SortByCount(DropLast(s)), Last(s));
    }
  }

  /** The sort orders by count and keeps, for every count, the entries in their original order. */
  lemma {:induction false} SortIsStable(s: seq<Entry>, c: nat)
    ensures WithCount(SortByCount(s), c) == WithCount(s, c)
  {
    if |s| > 0 {
      var p := DropLast(s);
      var x := Last(s);
      var tail := if x.count == c then [x] else [];
      SortIsSorted(p);
      calc {
        WithCount(SortByCount(s), c);
        WithCount(Insert(SortByCount(p), x), c);
        { InsertStable(SortByCount(p), x, c); }
        WithCount(SortByCount(p), c) + tail;
        { SortIsStable(p, c); }
        WithCount(p, c) + tail;
        { WithCountSingle(x, c); }
        WithCount(p, c) + WithCount([x], c);
        { WithCountAppend(p, [x], c); }
        WithCount(p + [x], c);
        { assert p + [x] == s; }
        WithCount(s, c);
      }
    }
  }

  lemma WithCountSingle(x: Entry, c: nat)
    ensures WithCount([x], c) == if x.count == c then [x] else []
  {
    assert [x][1..] == [];
  }

  /** The sort by count cut to six: at most six entries, taken from the front of the sorted
      list, with no entry left out ranking above one kept, and among entries of equal
      count the ones kept are the earliest in map order. */
  function TopExercises(stats: seq<Entry>): (r: seq<Entry>)
    ensures |r| == if |stats| < TopCount then |stats| else TopCount
    ensures SortedByCount(r)
    ensures multiset(r) <= multiset(stats)
    ensures forall i, j :: 0 <= i < |r| && |r| <= j < |stats| ==> r[i].count >= SortByCount(stats)[j].count
    ensures forall c: nat :: WithCount(r, c) <= WithCount(stats, c)
    ensures r == SortByCount(stats)[..|r|]
    ensures forall x, y :: x in multiset(stats) - multiset(r) && y in r ==> x.count <= y.count
  {
    var n := if |stats| < TopCount then |stats| else TopCount;
    HeadOfSort(stats, n);
    KeptAreEarliest(stats, n);
    DroppedRankNoHigher(stats, n);
    SortByCount(stats)[..n]
  }

  /** The first n entries of the sorted list are sorted, drawn from the input, and rank at
      least as high as every entry after them. */
  lemma HeadOfSort(stats: seq<Entry>, n: int)
    requires 0 <= n <= |stats|
    ensures SortedByCount(SortByCount(stats)[..n])
    ensures multiset(SortByCount(stats)[..n]) <= multiset(stats)
    ensures forall i, j :: 0 <= i < n <= j < |stats| ==> SortByCount(stats)[..n][i].count >= SortByCount(stats)[j].count
  {
    var sorted := SortByCount(stats);
    SortIsSorted(stats);
    SortPermutes(stats);
    PrefixOfSorted(sorted, n);
    PrefixSubMultiset(sorted, n);
  }

  lemma PrefixOfSorted(t: seq<Entry>, n: int)
    requires SortedByCount(t) && 0 <= n <= |t|
    ensures SortedByCount(t[..n])
    ensures forall i, j :: 0 <= i < n <= j < |t| ==> t[..n][i].count >= t[j].count
  {
    forall i, j | 0 <= i < n <= j < |t|
      ensures t[..n][i].count >= t[j].count
    {
      assert t[..n][i] == t[i];
    }
  }

  lemma PrefixSubMultiset(t: seq<Entry>, n: int)
    requires 0 <= n <= |t|
    ensures multiset(t[..n]) <= multiset(t)
  {
    assert t == t[..n] + t[n..];
    assert multiset(t) == multiset(t[..n]) + multiset(t[n..]);
  }

  /** An entry the cut leaves out never has a higher count than an entry it keeps. */
  lemma DroppedRankNoHigher(stats: seq<Entry>, n: int)
    requires 0 <= n <= |stats|
    ensures forall x, y :: x in multiset(stats) - multiset(SortByCount(stats)[..n]) && y in SortByCount(stats)[..n] ==>
      x.count <= y.count
  {
    var sorted := SortByCount(stats);
    SortIsSorted(stats);
    SortPermutes(stats);
    forall x, y | x in multiset(stats) - multiset(sorted[..n]) && y in sorted[..n]
      ensures x.count <= y.count
    {
      CutRanks(sorted, n, x, y);
    }
  }

  /** In a list sorted by count, what lies beyond a cut ranks no higher than what lies before it. */
  lemma CutRanks(t: seq<Entry>, n: int, x: Entry, y: Entry)
    requires SortedByCount(t) && 0 <= n <= |t|
    requires x in multiset(t) - multiset(t[..n]) && y in t[..n]
    ensures x.count <= y.count
  {
    assert t == t[..n] + t[n..];
    assert multiset(t) == multiset(t[..n]) + multiset(t[n..]);
    assert x in multiset(t[n..]);
    var j :| 0 <= j < |t[n..]| && t[n..][j] == x;
    var i :| 0 <= i < n && t[..n][i] == y;
    assert t[i] == y && t[n + j] == x;
  }

  lemma KeptAreEarliest(stats: seq<Entry>, n: int)
    requires 0 <= n <= |stats|
    ensures forall c: nat :: WithCount(SortByCount(stats)[..n], c) <= WithCount(stats, c)
  {
    var sorted := SortByCount(stats);
    assert sorted == sorted[..n] + sorted[n..];
    forall c: nat
      ensures WithCount(sorted[..n], c) <= WithCount(stats, c)
    {
      WithCountAppend(sorted[..n], sorted[n..], c);
      SortIsStable(stats, c);
    }
  }
}

=== FILE: records.dfy ===
/** Rows the client reads from the backend, as the core's pure computations see them,
    and the reference sums over a workout list that several screens agree on. */
module Records {

  datatype Option<T> = None | Some(value: T)

  /** One entry of a workout's `sets` array. */
  datatype SetEntry = SetEntry(id: int, reps: int)

  /** The joined `exercises (name, id)` row of a workout. */
  datatype ExerciseRef = ExerciseRef(id: int, name: string)

  /** A logged workout row.
      `completedAt` is the `completed_at` timestamp; `day` is the local calendar day it
      falls on (the `yyyy-MM-dd` key), supplied by the caller because calendar arithmetic
      is outside the model. `xpEarned` is None when `total_xp_earned` is null, `sets` is
      None when the column is not an array, `exercise` is None when the join is missing. */
  datatype Workout = Workout(
    completedAt: int,
    day: int,
    xpEarned: Option<int>,
    sets: Option<seq<SetEntry>>,
    exercise: Option<ExerciseRef>)

  /** The XP a workout earned, counted as 0 when it has none. */
  function XpOrZero(w: Workout): int
  {
    match w.xpEarned
    case Some(x) => x
    case None => 0
  }

  /** The number of sets a workout logged, counted as 0 when its set list is not a list. */
  function SetCount(w: Workout): nat
  {
    match w.sets
    case Some(ss) => |ss|
    case None => 0
  }

  function Last<T>(s: seq<T>): T
    requires |s| > 0
  {
    s[|s| - 1]
  }

  function DropLast<T>(s: seq<T>): seq<T>
    requires |s| > 0
  {
    s[..|s| - 1]
  }

  /** Number of workouts that fall on day `d`. */
  function CountOn(ws: seq<Workout>, d: int): nat
  {
    if |ws| == 0 then 0
    else CountOn(DropLast(ws), d) + (if Last(ws).day == d then 1 else 0)
  }

  /** Sum of the XP (missing counted as 0) of the workouts on day `d`. */
  function XpOn(ws: seq<Workout>, d: int): int
  {
    if |ws| == 0 then 0
    else XpOn(DropLast(ws), d) + (if Last(ws).day == d then XpOrZero(Last(ws)) else 0)
  }

  /** Sum of the set-list lengths (non-array counted as 0) of the workouts on day `d`. */
  function SetsOn(ws: seq<Workout>, d: int): nat
  {
    if |ws| == 0 then 0
    else SetsOn(DropLast(ws), d) + (if Last(ws).day == d then SetCount(Last(ws)) else 0)
  }

  /** Days on which at least one workout was logged. */
  ghost function DaysOf(ws: seq<Workout>): set<int>
  {
    set i | 0 <= i < |ws| :: ws[i].day
  }
}

=== FILE: set_editor.dfy ===
/** The set editor of the workout screen: a list of `{id, reps}` sets with a rep
    counter per set and an "Add Set" button. */
module SetEditor {
  import JsMath

  datatype RepSet = RepSet(id: int, reps: int)

  /** Reps given to a newly added set. */
  const NewSetReps: int := 8

  /** Ids run 1, 2, 3, ... in list order and no set has negative reps. */
  predicate WellFormed(sets: seq<RepSet>)
  {
    (forall i :: 0 <= i < |sets| ==> sets[i].id == i + 1) &&
    (forall i :: 0 <= i < |sets| ==> sets[i].reps >= 0)
  }

  /** The list the screen opens with. */
  function InitialSets(): (sets: seq<RepSet>)
    ensures WellFormed(sets)
    ensures |sets| == 3
  {
    [RepSet(1, 10), RepSet(2, 8), RepSet(3, 6)]
  }

  /** `updateReps`: every set with that id has its reps moved by `delta`, stopping at 0;
      all other sets, the length and the order of ids stay as they were. */
  function UpdateReps(sets: seq<RepSet>, id: int, delta: int): (r: seq<RepSet>)
    ensures |r| == |sets|
    ensures forall i :: 0 <= i < |sets| ==> r[i].id == sets[i].id
    ensures forall i :: 0 <= i < |sets| && sets[i].id != id ==> r[i] == sets[i]
    ensures forall i :: 0 <= i < |sets| && sets[i].id == id ==> r[i].reps == JsMath.Max(0, sets[i].reps + delta)
    ensures forall i :: 0 <= i < |sets| && sets[i].reps >= 0 ==> r[i].reps >= 0
  {
    if |sets| == 0 then []
    else
      var s := sets[|sets| - 1];
      UpdateReps(sets[..|sets| - 1], id, delta)
        + [if s.id == id then s.(reps := JsMath.Max(0, s.reps + delta)) else s]
  }

  /** `addSet`: the old list followed by one set numbered one past the length. */
  function AddSet(sets: seq<RepSet>): (r: seq<RepSet>)
    ensures |r| == |sets| + 1
    ensures r[..|sets|] == sets
    ensures r[|sets|] == RepSet(|sets| + 1, NewSetReps)
  {
    sets + [RepSet(|sets| + 1, NewSetReps)]
  }

  datatype Edit = Update(id: int, delta: int) | Add

  function Apply(sets: seq<RepSet>, e: Edit): seq<RepSet>
  {
    match e
    case Update(id, delta) => UpdateReps(sets, id, delta)
    case Add => AddSet(sets)
  }

  function Replay(sets: seq<RepSet>, edits: seq<Edit>): seq<RepSet>
    decreases |edits|
  {
    if |edits| == 0 then sets else Replay(Apply(sets, edits[0]), edits[1..])
  }

  /** Each button keeps the list well formed. */
  lemma ApplyPreserves(sets: seq<RepSet>, e: Edit)
    requires WellFormed(sets)
    ensures WellFormed(Apply(sets, e))
  {
  }

  /** Whatever the user presses, ids stay 1..n in order and reps never go negative. */
  lemma {:induction false} ReplayPreserves(sets: seq<RepSet>, edits: seq<Edit>)
    requires WellFormed(sets)
    ensures WellFormed(Replay(sets, edits))
    decreases |edits|
  {
    if |edits| > 0 {
      ApplyPreserves(sets, edits[0]);
      ReplayPreserves(Apply(sets, edits[0]), edits[1..]);
    }
  }

  /** In a well-formed list no two sets share an id, so an update touches exactly one set. */
  lemma IdsUnique(sets: seq<RepSet>)
    requires WellFormed(sets)
    ensures forall i, j :: 0 <= i < j < |sets| ==> sets[i].id != sets[j].id
  {
  }

  /** Every editing session that starts from the opening list stays well formed. */
  lemma SessionStaysWellFormed(edits: seq<Edit>)
    ensures WellFormed(Replay(InitialSets(), edits))
  {
    ReplayPreserves(InitialSets(), edits);
  }
}

=== FILE: timer.dfy ===
/** The rest/workout countdown timer as a step function: one-second ticks, play/pause,
    reset and the quick-set buttons, plus the `m:ss` display split. */
module WorkoutTimer {
  import JsMath

  const DefaultDuration: int := 60

  datatype Timer = Timer(duration: int, timeLeft: int, running: bool)

  /** The quick-set buttons: 30 s, 60 s, 90 s and 120 s. */
  datatype QuickChoice = Q30 | Q60 | Q90 | Q120

  function Seconds(q: QuickChoice): (s: int)
    ensures s in {30, 60, 90, 120}
    ensures q == Q30 ==> s == 30
    ensures q == Q60 ==> s == 60
    ensures q == Q90 ==> s == 90
    ensures q == Q120 ==> s == 120
  {
    match q
    case Q30 => 30
    case Q60 => 60
    case Q90 => 90
    case Q120 => 120
  }

  datatype Event = Second | Toggle | Reset | QuickSet(choice: QuickChoice)

  /** The result of a step and whether `onComplete` fired during it. */
  datatype StepResult = StepResult(timer: Timer, completed: bool)

  function NewTimer(duration: int): (t: Timer)
    ensures t.timeLeft == duration && !t.running && t.duration == duration
  {
    Timer(duration, duration, false)
  }

  /** An interval is installed only while running with time left. */
  predicate Ticking(t: Timer)
  {
    t.running && t.timeLeft > 0
  }

  /** One step. A second passing when no interval is installed changes nothing. */
  function Step(t: Timer, ev: Event): (r: StepResult)
    ensures r.timer.duration == t.duration
    ensures ev == Second && !Ticking(t) ==> r == StepResult(t, false)
    ensures ev == Second && Ticking(t) && t.timeLeft <= 1 ==>
      r == StepResult(Timer(t.duration, 0, false), true)
    ensures ev == Second && Ticking(t) && t.timeLeft > 1 ==>
      r == StepResult(t.(timeLeft := t.timeLeft - 1), false)
    ensures ev == Toggle ==> r == StepResult(t.(running := !t.running), false)
    ensures ev == Reset ==> r == StepResult(NewTimer(t.duration), false)
    ensures ev.QuickSet? ==> r == StepResult(Timer(t.duration, Seconds(ev.choice), false), false)
    ensures r.completed ==> ev == Second && t.running && t.timeLeft == 1
  {
    match ev
    case Second =>
      if !Ticking(t) then StepResult(t, false)
      else if t.timeLeft <= 1 then StepResult(Timer(t.duration, 0, false), true)
      else StepResult(t.(timeLeft := t.timeLeft - 1), false)
    case Toggle => StepResult(t.(running := !t.running), false)
    case Reset => StepResult(Timer(t.duration, t.duration, false), false)
    case QuickSet(q) => StepResult(Timer(t.duration, Seconds(q), false), false)
  }

  /** A non-negative duration and time left. */
  predicate Valid(t: Timer)
  {
    t.duration >= 0 && t.timeLeft >= 0
  }

  function Run(t: Timer, evs: seq<Event>): Timer
    decreases |evs|
  {
    if |evs| == 0 then t else Run(Step(t, evs[0]).timer, evs[1..])
  }

  /** Time left never goes negative, whatever the sequence of presses and seconds. */
  lemma {:induction false} RunStaysValid(t: Timer, evs: seq<Event>)
    requires Valid(t)
    ensures Valid(Run(t, evs))
    decreases |evs|
  {
    if |evs| > 0 {
      RunStaysValid(Step(t, evs[0]).timer, evs[1..]);
    }
  }

  /** Completion stops the timer at zero, so the very next second cannot fire it again. */
  lemma CompletionFiresOnce(t: Timer)
    requires Step(t, Second).completed
    ensures var t' := Step(t, Second).timer;
            t'.timeLeft == 0 && !t'.running && !Step(t', Second).completed
  {
  }

  /** A running timer with n + 1 seconds left is at its last second after n ticks, and the
      next tick completes it and stops it at 0. */
  lemma {:induction false} CountdownLength(t: Timer, n: nat)
    requires t.running && t.timeLeft == n + 1
    ensures Run(t, Ticks(n)) == t.(timeLeft := 1)
    ensures Step(Run(t, Ticks(n)), Second) == StepResult(Timer(t.duration, 0, false), true)
    decreases n
  {
    if n > 0 {
      var t1 := Step(t, Second).timer;
      assert Ticks(n)[1..] == Ticks(n - 1);
      CountdownLength(t1, n - 1);
    }
  }

  /** The timer without a `duration` prop: started once, it completes on its sixtieth tick. */
  lemma DefaultTimerRunsOneMinute()
    ensures var started := Step(NewTimer(DefaultDuration), Toggle).timer;
            Run(started, Ticks(59)) == Timer(DefaultDuration, 1, true) &&
            Step(Run(started, Ticks(59)), Second).completed
  {
    var started := Step(NewTimer(DefaultDuration), Toggle).timer;
    CountdownLength(started, 59);
  }

  /** n one-second events. */
  function Ticks(n: nat): (evs: seq<Event>)
    ensures |evs| == n
  {
    if n == 0 then [] else [Second] + Ticks(n - 1)
  }

  /** The clock face: whole minutes left and the seconds beyond them. */
  datatype Clock = Clock(minutes: int, seconds: int)

  function ClockFace(timeLeft: int): (c: Clock)
    ensures timeLeft >= 0 ==> c.minutes * 60 + c.seconds == timeLeft && 0 <= c.seconds < 60
  {
    JsMath.RemOfNonNegative(if timeLeft >= 0 then timeLeft else 0, 60);
    Clock(timeLeft / 60, JsMath.Rem(timeLeft, 60))
  }
}

=== FILE: weekly_goal.dfy ===
/** The weekly goal card: this week's workout count, the goal-met test, the capped
    progress bar, the target editor and the update-or-insert save of the target. */
module WeeklyGoal {
  import opened Records
  import JsMath

  const DefaultTarget: int := 3
  const MinTarget: int := 1
  const MaxTarget: int := 14

  /** The week window holds timestamps from the start of Sunday to the end of Saturday;
      both bounds are inclusive and are supplied by the caller. */
  predicate InWeek(w: Workout, weekStart: int, weekEnd: int)
  {
    weekStart <= w.completedAt <= weekEnd
  }

  /** `thisWeekWorkouts`: the length of the list filtered to the week window. */
  function ThisWeekCount(ws: seq<Workout>, weekStart: int, weekEnd: int): (n: nat)
    ensures n <= |ws|
  {
    if |ws| == 0 then 0
    else ThisWeekCount(DropLast(ws), weekStart, weekEnd) + (if InWeek(Last(ws), weekStart, weekEnd) then 1 else 0)
  }

  /** Positions of the list that fall inside the week window. */
  ghost function WeekIndices(ws: seq<Workout>, weekStart: int, weekEnd: int): set<int>
  {
    set i | 0 <= i < |ws| && InWeek(ws[i], weekStart, weekEnd)
  }

  /** The count is exactly the number of workouts inside the window. */
  lemma {:induction false} WeekCountIsWindowSize(ws: seq<Workout>, weekStart: int, weekEnd: int)
    ensures ThisWeekCount(ws, weekStart, weekEnd) == |WeekIndices(ws, weekStart, weekEnd)|
  {
    if |ws| > 0 {
      var n := |ws| - 1;
      WeekCountIsWindowSize(DropLast(ws), weekStart, weekEnd);
      var before := WeekIndices(DropLast(ws), weekStart, weekEnd);
      if InWeek(ws[n], weekStart, weekEnd) {
        assert WeekIndices(ws, weekStart, weekEnd) == before + {n};
      } else {
        assert WeekIndices(ws, weekStart, weekEnd) == before;
      }
    }
  }

  lemma {:induction false} WeekCountAppend(a: seq<Workout>, b: seq<Workout>, weekStart: int, weekEnd: int)
    ensures ThisWeekCount(a + b, weekStart, weekEnd)
         == ThisWeekCount(a, weekStart, weekEnd) + ThisWeekCount(b, weekStart, weekEnd)
    decreases |b|
  {
    if |b| == 0 {
      assert a + b == a;
    } else {
      assert DropLast(a + b) == a + DropLast(b);
      WeekCountAppend(a, DropLast(b), weekStart, weekEnd);
    }
  }

  /** Logging one more workout, wherever it lands in the list, never lowers the count. */
  lemma WeekCountMonotone(a: seq<Workout>, w: Workout, b: seq<Workout>, weekStart: int, weekEnd: int)
    ensures ThisWeekCount(a + b, weekStart, weekEnd) <= ThisWeekCount(a + [w] + b, weekStart, weekEnd)
  {
    WeekCountAppend(a, b, weekStart, weekEnd);
    WeekCountAppend(a + [w], b, weekStart, weekEnd);
    WeekCountAppend(a, [w], weekStart, weekEnd);
  }

  /** `isGoalMet` */
  predicate IsGoalMet(count: nat, target: int)
  {
    count >= target
  }

  /** A goal met this week stays met when another workout is logged, wherever it lands
      in the list. */
  lemma GoalStaysMet(a: seq<Workout>, w: Workout, b: seq<Workout>, weekStart: int, weekEnd: int, target: int)
    requires IsGoalMet(ThisWeekCount(a + b, weekStart, weekEnd), target)
    ensures IsGoalMet(ThisWeekCount(a + [w] + b, weekStart, weekEnd), target)
  {
    WeekCountMonotone(a, w, b, weekStart, weekEnd);
  }

  /** `progress`: the completion percentage, capped at 100. Reals stand in for
      JavaScript's floating point. The bar is full exactly when the goal is met. */
  function Progress(count: nat, target: int): (p: real)
    requires target >= 1
    ensures 0.0 <= p <= 100.0
    ensures p == 100.0 <==> IsGoalMet(count, target)
    ensures !IsGoalMet(count, target) ==> p * (target as real) == 100.0 * (count as real)
  {
    var ratio := count as real / target as real;
    var raw := ratio * 100.0;
    assert ratio * (target as real) == count as real;
    assert raw * (target as real) == 100.0 * (count as real);
    if raw < 100.0 then raw else 100.0
  }

  // ---------------------------------------------------------------- editor

  predicate InRange(t: int)
  {
    MinTarget <= t <= MaxTarget
  }

  /** The minus button: one less, never below 1. */
  function Decrement(t: int): (r: int)
    ensures r == JsMath.Max(MinTarget, t - 1)
    ensures InRange(t) ==> InRange(r)
    ensures r >= MinTarget
  {
    if t - 1 < MinTarget then MinTarget else t - 1
  }

  /** The plus button: one more, never above 14. */
  function Increment(t: int): (r: int)
    ensures r == JsMath.Min(MaxTarget, t + 1)
    ensures InRange(t) ==> InRange(r)
    ensures r <= MaxTarget
  {
    if t + 1 < MaxTarget then t + 1 else MaxTarget
  }

  /** Away from the bounds the two buttons undo each other. */
  lemma ButtonsUndoEachOther(t: int)
    ensures MinTarget < t <= MaxTarget ==> Increment(Decrement(t)) == t
    ensures MinTarget <= t < MaxTarget ==> Decrement(Increment(t)) == t
  {
  }

  /** Component state: the committed target, the value being edited and the mode. */
  datatype Editor = Editor(target: int, temp: int, editing: bool)

  function InitialEditor(): (e: Editor)
    ensures e.target == DefaultTarget && e.temp == DefaultTarget && !e.editing
  {
    Editor(DefaultTarget, DefaultTarget, false)
  }

  datatype EditorEvent = StartEdit | Minus | Plus | Cancel

  /** Every button but Save: none of them changes the committed target. */
  function Press(e: Editor, ev: EditorEvent): (e': Editor)
    ensures e'.target == e.target
    ensures ev == Cancel ==> e' == e.(editing := false)
    ensures ev == StartEdit ==> e'.editing && e'.temp == e.target
    ensures ev == Minus ==> e' == e.(temp := JsMath.Max(MinTarget, e.temp - 1))
    ensures ev == Plus ==> e' == e.(temp := JsMath.Min(MaxTarget, e.temp + 1))
    ensures InRange(e.target) && InRange(e.temp) ==> InRange(e'.temp)
  {
    match ev
    case StartEdit => Editor(e.target, e.target, true)
    case Minus => e.(temp := Decrement(e.temp))
    case Plus => e.(temp := Increment(e.temp))
    case Cancel => e.(editing := false)
  }

  // ---------------------------------------------------------------- save

  /** A row of `weekly_goals`. */
  datatype GoalRow = GoalRow(userId: int, targetWorkouts: int)

  /** The rows of one user, in store order. */
  function RowsOf(store: seq<GoalRow>, user: int): (rows: seq<GoalRow>)
    ensures |rows| <= |store|
    ensures forall r :: r in rows ==> r in store && r.userId == user
    ensures forall r :: r in store && r.userId == user ==> r in rows
    ensures forall r :: multiset(rows)[r] == if r.userId == user then multiset(store)[r] else 0
  {
    if |store| == 0 then []
    else
      assert store == DropLast(store) + [Last(store)];
      RowsOf(DropLast(store), user) + (if Last(store).userId == user then [Last(store)] else [])
  }

  /** `fetchGoal`: look the user's row up and, when there is exactly one, load its target
      into both the committed and the edited value. No row leaves the editor as it is; a
      failed request and a user with several rows both make the lookup error, which is
      logged and otherwise ignored. */
  function Loaded(e: Editor, store: seq<GoalRow>, user: int, lookupOk: bool): (e': Editor)
    ensures !lookupOk || |RowsOf(store, user)| != 1 ==> e' == e
    ensures lookupOk && |RowsOf(store, user)| == 1 ==>
      var t := RowsOf(store, user)[0].targetWorkouts;
      e' == Editor(t, t, e.editing)
  {
    var rows := RowsOf(store, user);
    if lookupOk && |rows| == 1 then Editor(rows[0].targetWorkouts, rows[0].targetWorkouts, e.editing) else e
  }

  /** The update query: every row of the user gets the new target. */
  function UpdateRows(store: seq<GoalRow>, user: int, target: int): (s': seq<GoalRow>)
    ensures |s'| == |store|
    ensures forall i :: 0 <= i < |store| ==>
      s'[i] == (if store[i].userId == user then GoalRow(user, target) else store[i])
  {
    if |store| == 0 then []
    else
      var row := Last(store);
      UpdateRows(DropLast(store), user, target) + [if row.userId == user then GoalRow(user, target) else row]
  }

  /** What the backend answers; the client cannot see inside it. */
  datatype Backend = Backend(lookupFails: bool, writeFails: bool)

  datatype SaveResult = SaveResult(editor: Editor, store: seq<GoalRow>)

  /** `saveGoal`. The single-row lookup yields no row when there are none, and also when the
      query errors (several rows, or a failed request), because the error is ignored; the
      save then inserts. The edited value is committed only when the write succeeds. */
  function SaveGoal(e: Editor, store: seq<GoalRow>, user: Option<int>, backend: Backend): (r: SaveResult)
    ensures user.None? ==> r == SaveResult(e, store)
    ensures backend.writeFails ==> r == SaveResult(e, store)
    ensures user.Some? && !backend.writeFails ==>
      r.editor == Editor(e.temp, e.temp, false)
    ensures user.Some? && !backend.writeFails && !backend.lookupFails && |RowsOf(store, user.value)| <= 1 ==>
      RowsOf(r.store, user.value) == [GoalRow(user.value, e.temp)]
    ensures user.Some? ==> forall u :: u != user.value ==> RowsOf(r.store, u) == RowsOf(store, u)
  {
    match user
    case None => SaveResult(e, store)
    case Some(u) =>
      if backend.writeFails then SaveResult(e, store)
      else
        var existing := !backend.lookupFails && |RowsOf(store, u)| == 1;
        var store' := if existing then UpdateRows(store, u, e.temp) else store + [GoalRow(u, e.temp)];
        UpdateKeepsOthers(store, u, e.temp);
        AppendKeepsOthers(store, GoalRow(u, e.temp));
        UpdateSingleRow(store, u, e.temp);
        InsertFirstRow(store, u, e.temp);
        SaveResult(Editor(e.temp, e.temp, false), store')
  }

  lemma {:induction false} UpdateRowsOf(store: seq<GoalRow>, user: int, target: int, u: int)
    ensures u != user ==> RowsOf(UpdateRows(store, user, target), u) == RowsOf(store, u)
    ensures u == user ==> |RowsOf(UpdateRows(store, user, target), u)| == |RowsOf(store, u)|
  {
    if |store| > 0 {
      UpdateRowsOf(DropLast(store), user, target, u);
      assert DropLast(UpdateRows(store, user, target)) == UpdateRows(DropLast(store), user, target);
    }
  }

  lemma UpdateKeepsOthers(store: seq<GoalRow>, user: int, target: int)
    ensures forall u :: u != user ==> RowsOf(UpdateRows(store, user, target), u) == RowsOf(store, u)
    ensures |RowsOf(UpdateRows(store, user, target), user)| == |RowsOf(store, user)|
    ensures forall r :: r in RowsOf(UpdateRows(store, user, target), user) ==> r == GoalRow(user, target)
  {
    forall u | u != user
      ensures RowsOf(UpdateRows(store, user, target), u) == RowsOf(store, u)
    {
      UpdateRowsOf(store, user, target, u);
    }
    UpdateRowsOf(store, user, target, user);
    var s' := UpdateRows(store, user, target);
    forall r | r in RowsOf(s', user)
      ensures r == GoalRow(user, target)
    {
      var i :| 0 <= i < |s'| && s'[i] == r;
    }
  }

  lemma AppendKeepsOthers(store: seq<GoalRow>, row: GoalRow)
    ensures forall u :: u != row.userId ==> RowsOf(store + [row], u) == RowsOf(store, u)
    ensures RowsOf(store + [row], row.userId) == RowsOf(store, row.userId) + [row]
  {
    assert DropLast(store + [row]) == store;
  }

  lemma UpdateSingleRow(store: seq<GoalRow>, user: int, target: int)
    ensures |RowsOf(store, user)| == 1 ==> RowsOf(UpdateRows(store, user, target), user) == [GoalRow(user, target)]
  {
    UpdateKeepsOthers(store, user, target);
    var rows := RowsOf(UpdateRows(store, user, target), user);
    if |rows| == 1 {
      assert rows[0] in rows;
    }
  }

  lemma InsertFirstRow(store: seq<GoalRow>, user: int, target: int)
    ensures |RowsOf(store, user)| == 0 ==> RowsOf(store + [GoalRow(user, target)], user) == [GoalRow(user, target)]
  {
    AppendKeepsOthers(store, GoalRow(user, target));
  }

  /** Because lookup errors are swallowed, a failed lookup on a user who already has a
      row makes the save insert a second one. */
  lemma FailedLookupDuplicatesRow(e: Editor, store: seq<GoalRow>, user: int)
    requires |RowsOf(store, user)| == 1
    ensures |RowsOf(SaveGoal(e, store, Some(user), Backend(true, false)).store, user)| == 2
  {
    AppendKeepsOthers(store, GoalRow(user, e.temp));
  }

  /** A goal saved with a working lookup is the goal the next load shows. */
  lemma SaveThenLoad(e: Editor, store: seq<GoalRow>, user: int, e0: Editor)
    requires |RowsOf(store, user)| <= 1
    ensures var saved := SaveGoal(e, store, Some(user), Backend(false, false));
            Loaded(e0, saved.store, user, true) == Editor(e.temp, e.temp, e0.editing)
  {
  }

  /** Once a failed lookup has duplicated the user's row, no later load ever shows a goal:
      the lookup finds two rows and errors, and the editor keeps its defaults. */
  lemma DuplicatedGoalNeverLoads(e: Editor, store: seq<GoalRow>, user: int, e0: Editor, lookupOk: bool)
    requires |RowsOf(store, user)| == 1
    ensures Loaded(e0, SaveGoal(e, store, Some(user), Backend(true, false)).store, user, lookupOk) == e0
  {
    FailedLookupDuplicatesRow(e, store, user);
  }

  // ---------------------------------------------------------------- text

  datatype Encouragement = Crushed | StartStrong | MoreToGo(remaining: int)

  /** The line under the dots: the "N more" text appears only for a started, unmet week,
      and then N is at least one. */
  function EncouragementFor(count: nat, target: int): (m: Encouragement)
    ensures m.Crushed? <==> IsGoalMet(count, target)
    ensures m.StartStrong? <==> !IsGoalMet(count, target) && count == 0
    ensures m.MoreToGo? ==> count > 0 && m.remaining >= 1 && count + m.remaining == target
  {
    if IsGoalMet(count, target) then Crushed
    else if count == 0 then StartStrong
    else MoreToGo(target - count)
  }
}
